=== FILE: README.md ===
# AnniversaryAPI auth and access-control core in Dafny

AnniversaryAPI is a small Go web service. Invited users register with a
single-use registration key and log in with a username and password. The
passwords are stored as Argon2id hashes. Users then receive an HS256 JWT,
and with it they can refresh the token, upload pictures and page through
them. A picture can be downloaded only on the anniversary day or during the
Valentine month. A separate bearer key protects the Prometheus endpoint.

This project models that core as pure Dafny functions over an immutable
store, and proves properties of it:

- `Db`, `DbPictures` and `DbSqlite` model the SQLite tables:
  - `users`, `keys` and `images` are sequences in rowid order;
  - a new row takes the next rowid;
  - a query or insert that fails is a fault parameter.
- `Argon2` models the `$argon2id$v=19$m=..,t=..,p=..$salt$hash` encoding and
  the verifier that parses it back. It builds on:
  - `Base64` (RawStdEncoding, with its round trip proved);
  - `Decimal` (Go's `%d` formatting, `Sscanf` `%d` scanning and `strconv.Atoi`);
  - `Text` (`strings.Split`, `Contains`, `HasPrefix` and ASCII `ToLower`).
- `Jwt` models `jwt.Parse` from jwt-go v3 and `MapClaims.Valid`. The token
  serialisation and the HMAC are a `Codec` of functions.
- `AuthHelpers` and `AuthHandlers` model:
  - `attemptLogin`, token issue and `validateToken`;
  - the `Login`, `Register`, `Refresh`, `GetKeys` and `AddKey` handlers, as
    functions from a request and a store to a new store and a JSON response.
- `Bearer` and `Server` model the `Authorization` header handling, the copy
  of the token validator in the server package, and the two middlewares.
- `FilePath` models `filepath.Clean`, `Join` and `Ext` (lexical only).
- `PictureHelpers` and `PictureHandlers` model:
  - pagination, safe file names and the upload error replies;
  - the `GetPictures`, `GetPicture`, `GetTotalPictures` and `UploadPictures`
    handlers.

## Parameters

The model takes these as parameters because it cannot compute them:

- **Argon2id key derivation**: a function `Kdf`. Lemmas that need it to
  return `keyLen` bytes require `DerivesKeyLen`.
  `argon2.IDKey` panics unless there is at least one pass, one lane and a
  key length of at least one byte (BLAKE2b refuses a zero-size digest);
  `Config.Derivable` states that condition, and the model returns a
  `DerivationPanicked` outcome where the code would panic.
- **SHA-256**: a function to 32-byte digests.
- **The JWT compact serialisation and HMAC**: a `Codec`. Lemmas that need
  deserialisation to invert serialisation require `Sound`.
- **Values read from the outside world**:
  - the salt bytes from `crypto/rand`, or their failure;
  - the UUIDs of `genKeys`;
  - `time.Now()` (the day, the month, the Unix time and the string stamp);
  - `os.Stat`.
- **Database and file errors**: boolean or index-indexed fault parameters.

## Model

| member | source | states |
|---|---|---|
| Argon2.Hash | pkg/crypto/Argon2.go:32-46 | returns the salt error exactly when the salt cannot be read; otherwise `argon2.IDKey` panics exactly when the configured time, threads or key length is 0, and the hash is written in every other case |
| Argon2.HashFields | pkg/crypto/Argon2.go:42-45 | the hash text splits on `$` into exactly the six fields `"", "argon2id", "v=19", m=..,t=..,p=.., base64(salt), base64(key)` |
| Argon2.ParseParams | pkg/crypto/Argon2.go:63-66 | a parsed cost triple fits Go's uint32/uint32/uint8 fields and the field starts with `m=` |
| Argon2.ParseParamsField | pkg/crypto/Argon2.go:42-43 | scanning the written `m=%d,t=%d,p=%d` field gives back the configured memory, time and threads |
| Argon2.ParseVersionField | pkg/crypto/Argon2.go:56-61 | scanning the written version field gives back version 19 |
| Argon2.RecoveredKeyLen | pkg/crypto/Argon2.go:75 | the key length recovered as `len*3/4` over the field's UTF-8 byte length (Go's `len`), truncated to uint32, is below 2^32 |
| Argon2.RecoveredKeyLenOfBase64 | pkg/crypto/Argon2.go:75 | on base64 text the byte length is the character count, so the recovered length is `chars*3/4` |
| Argon2.TwoByteCharKeyLen | pkg/crypto/Argon2.go:75 | a digest field holding the one two-byte character U+00E9 gives key length 1, not 0 |
| Argon2.TwoByteDigestFieldDerives | pkg/crypto/Argon2.go:56-81 | with that digest field and parseable other fields, Verify derives without panicking and answers `false` |
| Argon2.NonBase64DigestMismatches | pkg/crypto/Argon2.go:74-81 | a digest field that is not base64 text never matches: once the derivation runs, the verdict is `false`, not an error |
| Argon2.Verify | pkg/crypto/Argon2.go:49-82 | a field count other than six, an unparsable version, unparsable parameters and an undecodable salt each give their own error, in that order; the key derivation panics exactly when the stored fields parse with time or threads 0 or with a digest field whose UTF-8 byte length times 3/4 is 0 (an empty or one-byte digest); success implies that the salt decoded; `true` implies that the stored hash is base64 text |
| Argon2.VerifyFields | pkg/crypto/Argon2.go:56-81 | the same error order and panic condition, stated for the six split fields |
| Argon2.EncodedParses | pkg/crypto/Argon2.go:42-75 | every field of a hash in the written format parses back: six fields, the version, the cost triple, the salt, and the key length recovered from the digest |
| Argon2.VerifyUnderivablePanics | pkg/crypto/Argon2.go:63-78 | a stored hash with `t=0`, `p=0` or a digest of recovered length 0 parses, and then the key derivation in Verify panics |
| Argon2.EmptyDigestPanics | pkg/crypto/Argon2.go:74-78 | a stored hash whose digest field is empty makes Verify derive with key length 0, and panic |
| Argon2.VerifyCanonical | pkg/crypto/Argon2.go:49-82 | on a well-formed hash with non-zero time, threads and recovered key length, Verify re-derives the key from the decoded salt and parameters and compares its encoding with the stored one |
| Argon2.VerifyHash | pkg/crypto/Argon2.go:32-82 | Verify accepts the password that Hash was given (the hash/verify round trip) |
| Argon2.VerifyWrongPassword | pkg/crypto/Argon2.go:78-81 | a password whose derived key differs is rejected with `false`, not an error |
| Argon2.VerifyIgnoresAlgorithmAndVersion | pkg/crypto/Argon2.go:56-61 | the algorithm name and the version number never affect the verdict once the version parses |
| Base64.DecodeEncode | pkg/crypto/Argon2.go:69-72 | RawStdEncoding decoding inverts encoding for every byte string |
| Base64.EncodeAlphabet | pkg/crypto/Argon2.go:44-45 | encoded text uses only the base64 alphabet, has no `$` or newline, and is ceil(4n/3) long |
| Base64.KeyLengthFromEncoding | pkg/crypto/Argon2.go:75 | `len(encoding)*3/4` is exactly the original key length, so Verify derives a key of the stored length |
| Base64.Decode | pkg/crypto/Argon2.go:69 | a successful decode means the text (without CR/LF) is all alphabet; a length of 1 mod 4 is rejected |
| Decimal.ValueOfFormat | pkg/crypto/Argon2.go:42-43 | the decimal digits `%d` writes denote the number written |
| Decimal.ScanFormat | pkg/crypto/Argon2.go:63 | `%d` scanning of the formatted number, followed by a non-digit, gives back the number and the rest |
| Decimal.ScanInt64Format | pkg/crypto/Argon2.go:58 | the same for the signed version field |
| Decimal.ScanUnsigned | pkg/crypto/Argon2.go:63 | a scanned value fits its Go type and consumes a non-empty digit run |
| Decimal.Atoi | internal/pictures/helpers.go:94-108 | an accepted number fits int64 and comes from non-empty text |
| Decimal.AtoiFormat | internal/pictures/helpers.go:94-108 | Atoi reads back every formatted int64, positive or negative |
| Decimal.AtoiNeedsDigit | internal/pictures/helpers.go:94-108 | text without any digit is rejected |
| Text.Split | pkg/crypto/Argon2.go:51 | `strings.Split` gives at least one piece, and no piece contains the separator |
| Text.JoinSplit | pkg/crypto/Argon2.go:51 | joining the pieces of a split with the separator gives the text back |
| Text.SplitJoin | pkg/crypto/Argon2.go:42-51 | splitting a join of separator-free pieces gives the pieces back |
| Text.IndexOf | internal/server/middleware.go:51 | finds the first occurrence, or reports that there is none anywhere |
| Text.ToLower | internal/auth/handlers.go:89-90 | same length; each ASCII capital becomes lower case and every other character is kept |
| Text.Utf8Len | pkg/crypto/Argon2.go:75 | Go's `len` of a string: between one and four bytes per character, and exactly one per character iff the text is ASCII |
| Text.ToLowerIdempotent | internal/auth/handlers.go:89-90 | lower-casing twice is lower-casing once |
| Db.NextRowId | pkg/db/users.go:9-15 | a new rowid exceeds every existing id, and is 1 in an empty table or one more than an existing id |
| Db.GetUser | pkg/db/users.go:17-21 | succeeds iff some row has the name, returning a stored row with that name; `sql.ErrNoRows` otherwise |
| Db.CreateUser | pkg/db/users.go:9-15 | appends exactly one row with a fresh id; the returned user is what `GetUser` then finds: the new row for a fresh name, the older row for a taken one |
| Db.CreateThenGetUser | pkg/db/users.go:9-21 | after creating a new name, looking it up returns the created user with its password hash |
| Db.ContainsKey | pkg/db/users.go:28-32 | true iff the key occurs in the keys table |
| Db.InsertKey | pkg/db/users.go:23-26 | `CreateKey`, and `AddKey` at lines 57-60 which runs the same INSERT, add exactly one occurrence of the key even when it is already present; users and images are unchanged |
| Db.DeleteKey | pkg/db/users.go:34-37 | removes every occurrence of the key and keeps every other key with its count; other tables are unchanged |
| Db.InsertThenDeleteKey | pkg/db/users.go:23-37 | an inserted key is found, and deleting it undoes the insert as far as that key is concerned |
| Db.GetKeys | pkg/db/users.go:39-55 | returns the keys table as a multiset |
| DbPictures.GetImagesPaginated | pkg/db/pictures.go:31-48 | `LIMIT/OFFSET` returns the contiguous window of min(limit, rows-offset) rows starting at the offset |
| DbPictures.PagesConcatenate | pkg/db/pictures.go:31-48 | two consecutive pages are the single page of their combined size |
| DbPictures.CreateImage | pkg/db/pictures.go:50-53 | appends one row with the uploader, name and time, and an id above every existing one |
| DbPictures.DeleteImage | pkg/db/pictures.go:55-58 | no row with the id remains and every other row keeps its multiplicity |
| DbPictures.GetImage | pkg/db/pictures.go:60-64 | returns a stored row with the id, and fails iff there is none |
| DbPictures.GetImagesByUser | pkg/db/pictures.go:66-83 | exactly the user's rows, each with its multiplicity |
| DbPictures.CreateImageVisibleToOwner | pkg/db/pictures.go:50-83 | a new image is appended to its uploader's listing and to no one else's |
| DbSqlite.GenKeys | pkg/db/sqlite.go:83-90 | n keys, the i-th being the i-th UUID drawn |
| DbSqlite.Migrate | pkg/db/sqlite.go:48-81 | on success, adds the three seeded keys; a failing CREATE changes nothing; a failing insert keeps the keys inserted before it |
| DbSqlite.MigrateRunsAddKeys | pkg/db/sqlite.go:48-81 | every start-up adds three more keys and keeps the old ones, because nothing deduplicates them |
| DbSqlite.GetTotalPictures | pkg/db/sqlite.go:92-99 | the count is the number of image rows |
| DbSqlite.TotalAfterCreate | pkg/db/sqlite.go:92-99 | creating an image raises the total by exactly one |
| Jwt.Parse | internal/auth/helpers.go:90-112 | a token is valid iff it deserialises, names a known HMAC method that the key function accepts, carries the MAC of its claims under that key, and has unexpired time claims; it is valid iff there is no error |
| Jwt.ParseSigned | internal/auth/helpers.go:66-112 | a token signed with HS256 under the key the callback returns parses back to its claims, valid |
| Jwt.NoTimeClaimsValid | internal/auth/helpers.go:74-78 | claims without exp, iat or nbf never expire |
| AuthHelpers.AttemptLogin | internal/auth/helpers.go:33-63 | a lookup failure, an unknown lower-cased name and a wrong password each give their error; an error from verifying the stored hash is passed on unchanged; success iff the stored hash verifies, returning the stored user |
| AuthHelpers.LoginWithHashedPassword | internal/auth/helpers.go:23-63 | a user stored with the Argon2 hash of the password logs in with any capitalisation of the name |
| AuthHelpers.GenerateToken | internal/auth/helpers.go:66-85 | the token deserialises to an HS256 token over `{username, user_id}`, signed with the JWT key |
| AuthHelpers.ValidateToken | internal/auth/helpers.go:88-153 | accepts iff Parse says valid and the claims carry a numeric `user_id` and a string `username`; returns that user without a password |
| AuthHelpers.ValidateGenerated | internal/auth/helpers.go:66-153 | a token the service issued validates back to the user it was issued for |
| AuthHelpers.ValidateRejectsForgery | internal/auth/helpers.go:90-104 | a token whose signature is not the MAC under the JWT key is rejected |
| AuthHelpers.ValidateRejectsOtherAlgorithms | internal/auth/helpers.go:90-96 | a token naming a non-HMAC or unknown algorithm is rejected |
| Bearer.ExtractToken | internal/server/middleware.go:11-30 | a missing header, a header not starting with `Bearer ` and a bare `Bearer ` each give their 401 message; otherwise the token is the rest after the prefix |
| Bearer.ExtractTokenOf | internal/server/middleware.go:19-27 | `Bearer <token>` yields the token |
| Bearer.PrefixIsExact | internal/server/middleware.go:13-30 | the prefix match is case-sensitive and needs the space |
| AuthHandlers.Register | internal/auth/handlers.go:63-148 | 400, 500, 401 (unknown key) and 409 (taken lower-cased name) in source order; 200 iff the key exists, the name is free (or its probe failed) and every step succeeds; on 200 exactly one user with the hashed password is added, the key is consumed and the token is for the first row with the lower-cased name, which is the new user when the name was free; a key-derivation panic while hashing leaves the store unchanged and is answered by gin's recovery |
| AuthHandlers.RegistrationKeySingleUse | internal/auth/handlers.go:77-123 | a key that registered one account is refused (401) for the next one |
| AuthHandlers.ProbeFailureIssuesOlderToken | internal/auth/handlers.go:91-131 | when the taken-name probe fails on a taken name, a duplicate row is added and the 200 carries the older account's token |
| AuthHandlers.DeleteKeyFailureKeepsAccount | internal/auth/handlers.go:109-123 | when deleting the key fails, the reply is 500 but the account exists and the key remains usable |
| AuthHandlers.Login | internal/auth/handlers.go:13-60 | 400 on a bad body; 200 with the user's token iff login succeeds; 401 iff the name is unknown or the password wrong; a key-derivation panic while verifying is answered by gin's recovery; nothing written on other errors (a lookup error or a malformed stored hash), so the client gets gin's empty 200 |
| AuthHandlers.Refresh | internal/auth/handlers.go:151-217 | every failure path panics in `ErrorHandler` with a nil error: a header error is answered by gin's recovery (bare 500); a token that does not validate keeps `validateToken`'s 401 "Unauthorized"; 200 iff the bearer token validates, with a new token for the claims' user |
| AuthHandlers.RegisterLoginRefresh | internal/auth/handlers.go:13-217 | registering "Alice", logging in as "ALICE" and refreshing that token all succeed, and the refreshed token is for the registered id |
| AuthHandlers.GetKeys | internal/auth/handlers.go:219-236 | 401 unless the API key matches; 200 iff it matches and the read succeeds, listing every key |
| AuthHandlers.AddKey | internal/auth/handlers.go:238-260 | 401, 400 and 500 in source order; 200 iff authorised, bound and inserted, adding exactly that key |
| Server.ValidateToken | internal/server/helpers.go:12-74 | accepts iff the token verifies under the JWT key with valid time claims and carries a user; returns the claims' id and name |
| Server.ValidatorsAgree | internal/server/helpers.go:12-74 | the server copy of the validator agrees with the auth one on every token |
| Server.AuthMiddleware | internal/server/middleware.go:9-46 | aborts with 401 and the header message on a bad header; continues iff the bearer token validates, passing on the claims' id and name |
| Server.IssuedTokenPasses | internal/server/middleware.go:9-46 | a token issued by the auth service passes the middleware with its user |
| Server.SecondPiece | internal/server/middleware.go:57 | `strings.Split(s, sep)[1]` exists iff sep occurs, and is the text after the first occurrence up to the next one |
| Server.PrometheusAuthMiddleware | internal/server/middleware.go:48-65 | 401 without "Bearer"; an index-out-of-range panic when "Bearer" occurs without a following space; passes iff the piece after the first "Bearer " equals the key |
| Server.PrometheusKeyAccepted | internal/server/middleware.go:48-65 | `Bearer <key>` passes |
| Server.PrometheusLooseMatching | internal/server/middleware.go:51-57 | text before "Bearer " is ignored, so `Token Bearer <key>` passes; `Bearer<key>` does not |
| FilePath.Fold | internal/pictures/handlers.go:60 | the lexical clean of the elements keeps no empty or "." element and ".." only as a leading run (never when rooted) |
| FilePath.Clean | internal/pictures/handlers.go:60 | never empty; rooted iff the input is |
| FilePath.Join | internal/pictures/handlers.go:60 | empty iff every element is empty |
| FilePath.CleanOfPlain | internal/pictures/helpers.go:59 | a path of plain names is already clean |
| FilePath.JoinPlain | internal/pictures/helpers.go:59 | joining a plain directory and a plain name is `dir/name` |
| FilePath.JoinParent | internal/pictures/handlers.go:60-63 | `Join(dir, "../sibling/file")` is `sibling/file` |
| FilePath.Ext | internal/pictures/helpers.go:24 | the extension is a suffix of the path with no `/`, starting with its only `.`; it is empty iff every dot is followed by a later `/` |
| PictureHelpers.ParsePagination | internal/pictures/helpers.go:90-114 | the limit is in 1..100 and the offset non-negative; each query value is used iff Atoi accepts it and it is in range, else the default 3 or 0 |
| PictureHelpers.PaginationOfFormatted | internal/pictures/helpers.go:90-114 | in-range numbers pass through unchanged |
| PictureHelpers.PaginationOutOfRange | internal/pictures/helpers.go:90-114 | negative values, and limits above 100, fall back to the defaults |
| PictureHelpers.Hex | internal/pictures/helpers.go:29 | `%x` writes two lower-case hex digits per byte, high nibble first |
| PictureHelpers.HexInjective | internal/pictures/helpers.go:29 | different digests give different hex names |
| PictureHelpers.SafeFileName | internal/pictures/helpers.go:22-35 | 64 hex digits followed by the original's extension, a plain name without `/` whatever the client sent |
| PictureHelpers.ValidateAndSave | internal/pictures/helpers.go:53-66 | a non-image content type is a validation error; a failed save is a file error; success iff both pass, returning the safe name |
| PictureHelpers.SavedInsideBase | internal/pictures/helpers.go:58-59 | the file is saved directly inside the base directory |
| PictureHelpers.UploadErrorReply | internal/pictures/helpers.go:38-50 | file and validation errors give 400 with their message; any other error gives 500 |
| PictureHandlers.WholeValentineMonthOpen | internal/pictures/handlers.go:46 | the gate opens on every day of the Valentine month, and stays closed on other days of other months whose number is not the Valentine day |
| PictureHandlers.AnniversaryAlwaysOpen | internal/pictures/handlers.go:46 | the anniversary day opens the gate in every month |
| PictureHandlers.FebruaryFirstOpen | internal/pictures/handlers.go:46 | with February 14 as the Valentine date, 1 February is allowed although it is neither date, and 1 March is not |
| PictureHandlers.GetPicture | internal/pictures/handlers.go:44-87 | 403 outside the allowed dates; 400 iff the joined path does not start with the base path; 404 iff it does not exist; otherwise it serves the joined path |
| PictureHandlers.PlainNameServed | internal/pictures/handlers.go:44-87 | a plain name is served from `base/name` |
| PictureHandlers.TraversalRefused | internal/pictures/handlers.go:60-68 | `../etc/passwd` is refused with 400 |
| PictureHandlers.SiblingDirectoryPasses | internal/pictures/handlers.go:60-68 | the textual prefix check lets `../images2/x` out of `images` into the sibling `images2` |
| PictureHandlers.GetPictures | internal/pictures/handlers.go:16-41 | 500 on a query error; otherwise 200 with the page at the parsed offset, at most the parsed limit long |
| PictureHandlers.GetTotalPictures | internal/pictures/handlers.go:90-109 | 500 on a query error; otherwise 200 with the number of images |
| PictureHandlers.PartitionSizes | internal/pictures/handlers.go:136-148 | every file ends up either uploaded or failed; none uploaded iff every attempt failed |
| PictureHandlers.SaveAll | internal/pictures/handlers.go:136-148 | the loop collects the safe names of the saved files and the client names of the failed ones, in order |
| PictureHandlers.RecordAll | internal/pictures/handlers.go:154-161 | one image row per saved name whose insert succeeds, in order, owned by the user and stamped with the Unix time read in that iteration; a failed insert is skipped |
| PictureHandlers.UploadPictures | internal/pictures/handlers.go:112-178 | no form or no files gives 500; otherwise one 200 with the saved names when some succeeded, then one 400 with the failed names when some failed, so one or two replies that account for every file |

## Left out

- **Cryptography**: the Argon2id key derivation, SHA-256, HMAC-SHA256 and
  the JWT JSON/base64url serialisation are parameters (see above). The model
  states only what the code relies on about them.
- **Signing failures**: `SignedString` failing in `generateAndSendToken`,
  `Register` and `Refresh` is not modelled, because an HMAC over a byte key
  cannot fail.
- **Salt read failure**: a `rand.Read` failure is modelled in `Argon2.Hash`
  and `Register`, but the salt bytes themselves are not random here.
- **`user_id` as float64**: the claim travels as a JSON float64 and is
  converted back with `int(...)`. Claims here are integers, so precision
  loss above 2^53 is not modelled.
- **Time-based claims**: `exp`, `iat` and `nbf` are never set by the
  service. They are checked against the `now` parameter as `MapClaims.Valid`
  does, with integer times.
- **Double responses**:
  - In `Refresh`, on a token that does not validate, `validateToken` has
    written its 401 before `ErrorHandler` panics. Recovery cannot change a
    status already written, so that 401 is the modelled reply.
  - `UploadPictures` can write a 200 and then a 400; these are modelled as
    the list of replies.
- **gin machinery**:
  - `ShouldBindJSON` and `MultipartForm` are modelled as an `Option` that is
    None when the body does not bind.
  - `c.Abort` and the context keys (`user_id`, `username`) are outside
    the model.
  - The Recovery middleware of `gin.Default` turns a panic into a bare 500.
    The model stops at the panic: `Gate.Panic` for the Prometheus middleware,
    `Response.Recovered` for `Login`, `Register` and `Refresh`.
  - A handler that returns without writing (`Response.NothingWritten`)
    leaves gin to send an empty 200.
- **`ErrorHandler`**: its counter and log line are not modelled. Its
  `err.Error()` on the nil error `Refresh` passes panics, and that panic is
  modelled (see `AuthHandlers.Refresh`).
- **Not modelled at all**: logging, Prometheus counters, the
  mutex around `os.Stat`, and the file contents written by
  `saveUploadedFile`. `os.Stat` is a parameter; only its not-exist case is
  distinguished, as the handler does.
- **Database**: only its logical content is modelled.
  - Connection errors are fault parameters.
  - The `users` table has no UNIQUE constraint, so the INSERT of a
    registration cannot fail on a duplicate. Its failure is a free
    parameter.
  - The `created_at` column is declared TEXT, but the scanning of it into
    `time.Time` by `GetImages`, `GetImagesPaginated`, `GetImage` and
    `GetImagesByUser` is not modelled; rows are returned as stored.
  - The foreign key on `uploaded_by` is not enforced (SQLite's default).
- **Sscanf**: leading white space before a `%d` value is not skipped. The
  numbers `Hash` writes never have any.
- **Strings**: text is a sequence of Unicode characters. `len` is
  modelled as the UTF-8 byte count (`Text.Utf8Len`) where the code uses
  it; a Go string holding bytes that are not valid UTF-8 has no
  counterpart.
- **Text.ToLower**: lower-cases ASCII only, not the full Unicode case
  mapping of `strings.ToLower`.
- **AuthHelpers.VerifyPassword**: carries no contract of its own. It is
  `Argon2.Verify` with the service's key derivation, whose contract covers
  it.
- **DbPictures.GetImages**: carries no contract. It returns the table as
  stored, which `DbSqlite.GetTotalPictures` and `GetImagesPaginated` state
  things about.
- **PictureHandlers.GetPicture**: `time.Now()` is passed in as a day and a
  month. The values of `anniversaryDay`, `valentineDay` and `valentineMonth`
  are not part of this model; they are the fields of `Calendar`. The gate
  compares the month with both `valentineDay` and `valentineMonth`, as the
  code does, so every day of the Valentine month is open; see
  `PictureHandlers.WholeValentineMonthOpen`.
- **Server start-up**: `NewSQLiteDB`, `Close`, the router set-up in
  `server.go` and `cmd/main.go` are not part of this model.

=== FILE: argon2.dfy ===
/**
 * The encoded password-hash format of pkg/crypto/Argon2.go:
 * `$argon2id$v=<version>$m=<memory>,t=<time>,p=<threads>$<salt>$<digest>`,
 * salt and digest in unpadded standard base64. The Argon2id key derivation
 * itself (RFC 9106) is a parameter of the model: any deterministic function
 * from password, salt and cost parameters to a digest.
 */
module Argon2 {
  import opened Wrappers
  import opened Text
  import opened Base64
  import Decimal

  /** `argon2.Version`, 0x13. */
  const Version: nat := 0x13
  const SaltLen: nat := 16
  const Uint32Bound: nat := 0x1_0000_0000

  /** `Argon2Config`: Time, Memory and KeyLen are uint32, Threads is uint8. */
  datatype Config = Config(time: nat, memory: nat, threads: nat, keyLen: nat) {
    predicate FitsGoTypes() {
      time < Uint32Bound && memory < Uint32Bound && threads < 256 && keyLen < Uint32Bound
    }

    /**
     * `argon2.IDKey` panics unless there is at least one pass, one lane and
     * one output byte: a zero key length asks BLAKE2b for a zero-size digest,
     * which it refuses, and the derivation then writes to the missing hash.
     */
    predicate Derivable() {
      time >= 1 && threads >= 1 && keyLen >= 1
    }
  }

  /** `argon2.IDKey(password, salt, time, memory, threads, keyLen)`. */
  type Kdf = (string, seq<byte>, Config) -> seq<byte>

  /** IDKey returns exactly keyLen bytes. */
  ghost predicate DerivesKeyLen(kdf: Kdf) {
    forall password, salt, c :: |kdf(password, salt, c)| == c.keyLen
  }

  /** What `rand.Read` put into the 16-byte salt buffer, or its failure. */
  datatype Entropy = RandomBytes(bytes: seq<byte>) | EntropyFailure

  /**
   * `DerivationPanicked` is not an error value of the source: `argon2.IDKey`
   * panics, and the panic unwinds through the caller.
   */
  datatype HashError = SaltGenerationFailed | DerivationPanicked

  datatype VerifyError = InvalidFormat | BadVersion | BadParams | BadSalt | DerivationPanicked

  /** The cost parameters `Verify` reads back from the fourth field. */
  datatype Params = Params(memory: nat, time: nat, threads: nat)

  function ParamsField(c: Config): string {
    "m=" + (Decimal.Format(c.memory) + (",t=" + (Decimal.Format(c.time) + (",p=" + Decimal.Format(c.threads)))))
  }

  function VersionField(): string {
    "v=" + Decimal.Format(Version)
  }

  /** The six `$`-separated fields `Hash` writes; the first is empty. */
  function HashFieldsOf(c: Config, salt: seq<byte>, digest: seq<byte>): seq<string> {
    ["", "argon2id", VersionField(), ParamsField(c), Encode(salt), Encode(digest)]
  }

  /** The text `Hash` returns for a given salt and digest. */
  function Encoded(c: Config, salt: seq<byte>, digest: seq<byte>): string {
    JoinWith(HashFieldsOf(c, salt, digest), '$')
  }

  /** `Argon2.Hash`: the `fmt.Sprintf` of the source, as a join of its fields on `$`. */
  function Hash(c: Config, kdf: Kdf, password: string, rand: Entropy): (r: Result<string, HashError>)
    requires rand.RandomBytes? ==> |rand.bytes| == SaltLen
    ensures r == Failure(SaltGenerationFailed) <==> rand.EntropyFailure?
    ensures r == Failure(HashError.DerivationPanicked) <==> rand.RandomBytes? && !c.Derivable()
    ensures r.Success? <==> rand.RandomBytes? && c.Derivable()
  {
    match rand
    case EntropyFailure => Failure(SaltGenerationFailed)
    case RandomBytes(salt) =>
      if !c.Derivable() then Failure(HashError.DerivationPanicked)
      else Success(Encoded(c, salt, kdf(password, salt, c)))
  }

  /** The input with literal prefix lit consumed, as `Sscanf` matches format text. */
  function ScanLiteral(s: string, lit: string): (r: Option<string>)
    ensures r.Some? <==> HasPrefix(s, lit)
    ensures r.Some? ==> s == lit + r.value
  {
    if HasPrefix(s, lit) then Some(s[|lit|..]) else None
  }

  /** `fmt.Sscanf(field, "v=%d", &version)` into a Go int. */
  function ParseVersion(field: string): Option<int> {
    match ScanLiteral(field, "v=")
    case None => None
    case Some(rest) =>
      match Decimal.ScanInt64(rest)
      case None => None
      case Some((v, _)) => Some(v)
  }

  /** One `<lit>%d` piece of a scan format: the literal, then an unsigned number below bound. */
  function ScanField(s: string, lit: string, bound: nat): (r: Option<(nat, string)>)
    ensures r.Some? ==> r.value.0 < bound
  {
    match ScanLiteral(s, lit)
    case None => None
    case Some(rest) => Decimal.ScanUnsigned(rest, bound)
  }

  /** `fmt.Sscanf(field, "m=%d,t=%d,p=%d", ...)` into uint32, uint32, uint8. */
  function ParseParams(field: string): (r: Option<Params>)
    ensures r.Some? ==> r.value.memory < Uint32Bound && r.value.time < Uint32Bound && r.value.threads < 256
    ensures r.Some? ==> HasPrefix(field, "m=")
  {
    match ScanField(field, "m=", Uint32Bound)
    case None => None
    case Some((m, s1)) =>
      match ScanField(s1, ",t=", Uint32Bound)
      case None => None
      case Some((t, s2)) =>
        match ScanField(s2, ",p=", 256)
        case None => None
        case Some((p, _)) => Some(Params(m, t, p))
  }

  /**
   * The digest length `Verify` infers from the encoded digest, as a uint32:
   * three quarters of the field's length in UTF-8 bytes, which is its
   * character count when the field is base64 text.
   */
  function RecoveredKeyLen(digestField: string): (n: nat)
    ensures n < Uint32Bound
    ensures n <= |digestField| * 3
  {
    (Utf8Len(digestField) * 3 / 4) % Uint32Bound
  }

  /** On base64 text, bytes and characters coincide, so the length is three quarters of the character count. */
  lemma RecoveredKeyLenOfBase64(digestField: string)
    requires AllAlphabet(digestField)
    ensures RecoveredKeyLen(digestField) == (|digestField| * 3 / 4) % Uint32Bound
  {
    assert forall i :: 0 <= i < |digestField| ==> IsAscii(digestField[i]);
  }

  /** `Argon2.Verify(hash, password)`. */
  function Verify(encoded: string, password: string, kdf: Kdf): (r: Result<bool, VerifyError>)
    ensures |Split(encoded, '$')| != 6 ==> r == Failure(InvalidFormat)
    ensures |Split(encoded, '$')| == 6 && ParseVersion(Split(encoded, '$')[2]).None? ==> r == Failure(BadVersion)
    ensures (|Split(encoded, '$')| == 6 && ParseVersion(Split(encoded, '$')[2]).Some? &&
             ParseParams(Split(encoded, '$')[3]).None?) ==> r == Failure(BadParams)
    ensures (|Split(encoded, '$')| == 6 && ParseVersion(Split(encoded, '$')[2]).Some? &&
             ParseParams(Split(encoded, '$')[3]).Some? && Decode(Split(encoded, '$')[4]).Failure?) ==> r == Failure(BadSalt)
    ensures r == Failure(VerifyError.DerivationPanicked) <==>
      |Split(encoded, '$')| == 6 && ParseVersion(Split(encoded, '$')[2]).Some?
      && ParseParams(Split(encoded, '$')[3]).Some? && Decode(Split(encoded, '$')[4]).Success?
      && (ParseParams(Split(encoded, '$')[3]).value.time == 0 || ParseParams(Split(encoded, '$')[3]).value.threads == 0
          || RecoveredKeyLen(Split(encoded, '$')[5]) == 0)
    ensures r.Success? ==> Decode(Split(encoded, '$')[4]).Success?
    ensures r == Success(true) ==> AllAlphabet(Split(encoded, '$')[5])
  {
    var parts := Split(encoded, '$');
    if |parts| != 6 then Failure(InvalidFormat)
    else VerifyFields(parts, password, kdf)
  }

  /** `Verify` once the hash has split into six fields. */
  function VerifyFields(parts: seq<string>, password: string, kdf: Kdf): (r: Result<bool, VerifyError>)
    requires |parts| == 6
    ensures ParseVersion(parts[2]).None? ==> r == Failure(BadVersion)
    ensures ParseVersion(parts[2]).Some? && ParseParams(parts[3]).None? ==> r == Failure(BadParams)
    ensures ParseVersion(parts[2]).Some? && ParseParams(parts[3]).Some? && Decode(parts[4]).Failure? ==> r == Failure(BadSalt)
    ensures r == Failure(VerifyError.DerivationPanicked) <==>
      ParseVersion(parts[2]).Some? && ParseParams(parts[3]).Some? && Decode(parts[4]).Success?
      && (ParseParams(parts[3]).value.time == 0 || ParseParams(parts[3]).value.threads == 0
          || RecoveredKeyLen(parts[5]) == 0)
    ensures r.Success? ==> Decode(parts[4]).Success?
    ensures r == Success(true) ==> AllAlphabet(parts[5])
  {
    if ParseVersion(parts[2]).None? then Failure(BadVersion)
    else
      match ParseParams(parts[3])
      case None => Failure(BadParams)
      case Some(p) =>
        match Decode(parts[4])
        case Failure(_) => Failure(BadSalt)
        case Success(salt) =>
          var c := Config(p.time, p.memory, p.threads, RecoveredKeyLen(parts[5]));
          if !c.Derivable() then Failure(VerifyError.DerivationPanicked)
          else
            var digest := kdf(password, salt, c);
            EncodeAlphabet(digest);
            Success(Encode(digest) == parts[5])
  }

  lemma NoDollarInDigits(s: string)
    requires Decimal.AllDigits(s)
    ensures '$' !in s
  {
    assert forall i :: 0 <= i < |s| ==> s[i] != '$';
  }

  lemma VersionFieldIs19()
    ensures VersionField() == "v=19"
  {
    assert Decimal.Format(1) == "1";
    assert Decimal.Format(9) == "9";
    assert Decimal.Format(19) == Decimal.Format(1) + "9";
  }

  lemma NoDollarInParams(c: Config)
    ensures '$' !in ParamsField(c)
  {
    NoDollarInDigits(Decimal.Format(c.memory));
    NoDollarInDigits(Decimal.Format(c.time));
    NoDollarInDigits(Decimal.Format(c.threads));
  }

  /** `Hash` writes exactly six `$`-fields: "", "argon2id", "v=19", the parameters, salt and digest. */
  lemma HashFields(c: Config, kdf: Kdf, password: string, salt: seq<byte>)
    requires |salt| == SaltLen && c.Derivable()
    ensures Hash(c, kdf, password, RandomBytes(salt)).Success?
    ensures var fields := Split(Hash(c, kdf, password, RandomBytes(salt)).value, '$');
      && |fields| == 6
      && fields == ["", "argon2id", "v=19", ParamsField(c), Encode(salt), Encode(kdf(password, salt, c))]
  {
    VersionFieldIs19();
    SplitEncoded(c, salt, kdf(password, salt, c));
  }

  lemma ScanFieldFormat(lit: string, n: nat, rest: string, bound: nat)
    requires n < bound
    requires |rest| == 0 || !Decimal.IsDigit(rest[0])
    ensures ScanField(lit + (Decimal.Format(n) + rest), lit, bound) == Some((n, rest))
  {
    var s := lit + (Decimal.Format(n) + rest);
    assert s[|lit|..] == Decimal.Format(n) + rest;
    Decimal.ScanFormat(n, rest, bound);
  }

  /** Parsing the parameter field `Hash` wrote recovers the configured costs. */
  lemma ParseParamsField(c: Config)
    requires c.FitsGoTypes()
    ensures ParseParams(ParamsField(c)) == Some(Params(c.memory, c.time, c.threads))
  {
    var fp := Decimal.Format(c.threads);
    var s2 := ",p=" + fp;
    var s1 := ",t=" + (Decimal.Format(c.time) + s2);
    ScanFieldFormat("m=", c.memory, s1, Uint32Bound);
    ScanFieldFormat(",t=", c.time, s2, Uint32Bound);
    assert fp + "" == fp;
    ScanFieldFormat(",p=", c.threads, "", 256);
  }

  lemma ParseVersionField()
    ensures ParseVersion(VersionField()) == Some(Version as int)
  {
    var f := Decimal.Format(Version);
    assert VersionField()[2..] == f;
    assert f == f + "";
    Decimal.ScanInt64Format(Version, "");
  }

  /** The fields of an encoded hash come back apart on `$`. */
  lemma SplitEncoded(c: Config, salt: seq<byte>, digest: seq<byte>)
    ensures Split(Encoded(c, salt, digest), '$') == HashFieldsOf(c, salt, digest)
  {
    var fields := HashFieldsOf(c, salt, digest);
    NoDollarInParams(c);
    VersionFieldIs19();
    EncodeAlphabet(salt);
    EncodeAlphabet(digest);
    assert forall i :: 0 <= i < |fields| ==> '$' !in fields[i];
    SplitJoin(fields, '$');
  }

  /**
   * On a hash in the format `Hash` writes, Verify re-derives a digest from the
   * stored salt and costs, at the length of the stored digest, and compares.
   */
  lemma VerifyCanonical(c: Config, kdf: Kdf, password: string, salt: seq<byte>, digest: seq<byte>)
    requires c.FitsGoTypes() && Config(c.time, c.memory, c.threads, |digest| % Uint32Bound).Derivable()
    ensures Verify(Encoded(c, salt, digest), password, kdf)
         == Success(Encode(kdf(password, salt, Config(c.time, c.memory, c.threads, |digest| % Uint32Bound))) == Encode(digest))
  {
    EncodedParses(c, salt, digest);
  }

  /**
   * A hash written with zero passes, zero lanes or a digest whose recovered
   * length is zero (an empty digest field, say) parses, but `Verify` then
   * reaches `argon2.IDKey` with those costs and panics.
   */
  lemma VerifyUnderivablePanics(c: Config, kdf: Kdf, password: string, salt: seq<byte>, digest: seq<byte>)
    requires c.FitsGoTypes() && !Config(c.time, c.memory, c.threads, |digest| % Uint32Bound).Derivable()
    ensures Verify(Encoded(c, salt, digest), password, kdf) == Failure(VerifyError.DerivationPanicked)
  {
    EncodedParses(c, salt, digest);
  }

  /** A stored hash with an empty digest field makes `Verify` derive a zero-length key, and panic. */
  lemma EmptyDigestPanics(c: Config, kdf: Kdf, password: string, salt: seq<byte>)
    requires c.FitsGoTypes()
    ensures Verify(Encoded(c, salt, []), password, kdf) == Failure(VerifyError.DerivationPanicked)
  {
    VerifyUnderivablePanics(c, kdf, password, salt, []);
  }

  /** Every field of a hash in the written format parses back to what was written. */
  lemma EncodedParses(c: Config, salt: seq<byte>, digest: seq<byte>)
    requires c.FitsGoTypes()
    ensures var parts := Split(Encoded(c, salt, digest), '$');
      && |parts| == 6 && parts[5] == Encode(digest)
      && ParseVersion(parts[2]).Some?
      && ParseParams(parts[3]) == Some(Params(c.memory, c.time, c.threads))
      && Decode(parts[4]) == Success(salt)
      && RecoveredKeyLen(parts[5]) == |digest| % Uint32Bound
  {
    var parts := Split(Encoded(c, salt, digest), '$');
    SplitEncoded(c, salt, digest);
    assert parts == HashFieldsOf(c, salt, digest);
    ParseVersionField();
    assert parts[2] == VersionField();
    ParseParamsField(c);
    assert parts[3] == ParamsField(c);
    DecodeEncode(salt);
    assert parts[4] == Encode(salt);
    EncodeAlphabet(digest);
    RecoveredKeyLenOfBase64(parts[5]);
    KeyLengthFromEncoding(digest);
  }

  /**
   * A digest field that is not base64 text is never a match: once the other
   * fields parse and the costs allow the derivation, `Verify` answers
   * `(false, nil)`.
   */
  lemma NonBase64DigestMismatches(parts: seq<string>, password: string, kdf: Kdf)
    requires |parts| == 6 && ParseVersion(parts[2]).Some? && ParseParams(parts[3]).Some? && Decode(parts[4]).Success?
    requires ParseParams(parts[3]).value.time >= 1 && ParseParams(parts[3]).value.threads >= 1
    requires RecoveredKeyLen(parts[5]) >= 1 && !AllAlphabet(parts[5])
    ensures VerifyFields(parts, password, kdf) == Success(false)
  {
    var p := ParseParams(parts[3]).value;
    var digest := kdf(password, Decode(parts[4]).value, Config(p.time, p.memory, p.threads, RecoveredKeyLen(parts[5])));
    EncodeAlphabet(digest);
  }

  /** Go measures the digest field in bytes: the two-byte character U+00E9 gives key length 1. */
  lemma TwoByteCharKeyLen()
    ensures RecoveredKeyLen("\U{e9}") == 1
  {
    var field: string := "\U{e9}";
    assert Utf8Len(field) == 2 by {
      assert field[1..] == [];
    }
  }

  /**
   * A stored hash whose digest field is the single character U+00E9 derives
   * a one-byte key rather than panicking, and the verdict is a mismatch.
   */
  lemma TwoByteDigestFieldDerives(c: Config, kdf: Kdf, password: string, salt: seq<byte>, parts: seq<string>)
    requires c.FitsGoTypes() && c.time >= 1 && c.threads >= 1
    requires |parts| == 6 && ParseVersion(parts[2]).Some?
    requires parts[3] == ParamsField(c) && parts[4] == Encode(salt) && parts[5] == "\U{e9}"
    ensures RecoveredKeyLen(parts[5]) == 1
    ensures VerifyFields(parts, password, kdf) == Success(false)
  {
    TwoByteCharKeyLen();
    assert !IsAlphabet(parts[5][0]);
    assert !AllAlphabet(parts[5]);
    ParseParamsField(c);
    assert ParseParams(parts[3]).Some?;
    DecodeEncode(salt);
    assert Decode(parts[4]).Success?;
    NonBase64DigestMismatches(parts, password, kdf);
  }

  /** Verifying a hash with the password it was made from succeeds without error. */
  lemma VerifyHash(c: Config, kdf: Kdf, password: string, salt: seq<byte>)
    requires c.FitsGoTypes() && c.Derivable() && |salt| == SaltLen
    requires DerivesKeyLen(kdf)
    ensures Verify(Hash(c, kdf, password, RandomBytes(salt)).value, password, kdf) == Success(true)
  {
    var digest := kdf(password, salt, c);
    assert Hash(c, kdf, password, RandomBytes(salt)).value == Encoded(c, salt, digest);
    assert |digest| == c.keyLen;
    assert Config(c.time, c.memory, c.threads, |digest| % Uint32Bound) == c;
    VerifyCanonical(c, kdf, password, salt, digest);
  }

  /**
   * A well-formed hash made from another password gives (false, nil): a
   * mismatch, not an error.
   */
  lemma VerifyWrongPassword(c: Config, kdf: Kdf, password: string, other: string, salt: seq<byte>)
    requires c.FitsGoTypes() && c.Derivable() && |salt| == SaltLen
    requires DerivesKeyLen(kdf)
    requires kdf(other, salt, c) != kdf(password, salt, c)
    ensures Verify(Hash(c, kdf, password, RandomBytes(salt)).value, other, kdf) == Success(false)
  {
    var digest := kdf(password, salt, c);
    assert Hash(c, kdf, password, RandomBytes(salt)).value == Encoded(c, salt, digest);
    assert |digest| == c.keyLen;
    assert Config(c.time, c.memory, c.threads, |digest| % Uint32Bound) == c;
    VerifyCanonical(c, kdf, other, salt, digest);
    var d2 := kdf(other, salt, c);
    if Encode(d2) == Encode(digest) {
      DecodeEncode(d2);
      DecodeEncode(digest);
    }
  }

  /**
   * Verify never looks at the first two fields nor at the version value: two
   * six-field hashes that agree from the parameter field on and both carry a
   * parseable version verify alike.
   */
  lemma VerifyIgnoresAlgorithmAndVersion(p: seq<string>, q: seq<string>, password: string, kdf: Kdf)
    requires |p| == 6 && |q| == 6
    requires forall i :: 0 <= i < 6 ==> '$' !in p[i] && '$' !in q[i]
    requires p[3..] == q[3..]
    requires ParseVersion(p[2]).Some? && ParseVersion(q[2]).Some?
    ensures Verify(JoinWith(p, '$'), password, kdf) == Verify(JoinWith(q, '$'), password, kdf)
  {
    SplitJoin(p, '$');
    SplitJoin(q, '$');
    assert p[3] == q[3] && p[4] == q[4] && p[5] == q[5];
  }
}

=== FILE: auth_handlers.dfy ===
/**
 * The HTTP handlers of internal/auth/handlers.go as functions from the
 * request and the store to the store afterwards and the JSON reply.
 * Whether each database call fails is a parameter (a `Faults` record), and so
 * is the salt the random source supplies to `Argon2.Hash`.
 */
module AuthHandlers {
  import opened Wrappers
  import opened Text
  import opened Db
  import opened Jwt
  import opened AuthHelpers
  import Argon2
  import Bearer

  /** The body of a `c.JSON` reply: `{"token": ...}`, `{"error": ...}`, `{"keys": [...]}` or `{"message": ...}`. */
  datatype Body = TokenBody(token: string) | ErrorBody(error: string) | KeysBody(keys: seq<string>) | MessageBody(message: string)

  /**
   * What the handler wrote; `NothingWritten` is a return without `c.JSON`,
   * which gin completes as an empty 200,
   * and `Recovered` a panic inside the handler, which the Recovery
   * middleware of `gin.Default` answers with a bare 500.
   */
  datatype Response = Json(status: int, body: Body) | NothingWritten | Recovered

  datatype RegisterRequest = RegisterRequest(username: string, password: string, key: string)

  /**
   * Which database calls of `Register` fail: `ContainsKey`, the taken-name
   * `GetUser` probe, the INSERT of `CreateUser`, its read-back `GetUser`,
   * and `DeleteKey`.
   */
  datatype RegisterFaults = RegisterFaults(
    containsKey: bool, probe: bool, insert: bool, readBack: bool, deleteKey: bool)

  const NoRegisterFaults := RegisterFaults(false, false, false, false, false)

  const InternalError := Json(500, ErrorBody("internal server error"))

  /**
   * `Register`. `req` is None when the body does not bind as JSON. A failed
   * name probe is read as "name is free", as the source only refuses on a
   * successful lookup.
   */
  function Register(svc: AuthService, st: Store, req: Option<RegisterRequest>, faults: RegisterFaults, rand: Argon2.Entropy)
    : (r: (Store, Response))
    requires rand.RandomBytes? ==> |rand.bytes| == Argon2.SaltLen
    ensures req.None? ==> r == (st, Json(400, ErrorBody("invalid request")))
    ensures req.Some? && faults.containsKey ==> r == (st, InternalError)
    ensures req.Some? && !faults.containsKey && !ContainsKey(st, req.value.key) ==> r == (st, Json(401, ErrorBody("invalid key")))
    ensures (req.Some? && !faults.containsKey && ContainsKey(st, req.value.key) && !faults.probe
             && GetUser(st, ToLower(req.value.username)).Success?)
            ==> r == (st, Json(409, ErrorBody("username already exists")))
    ensures r.1.Json? && r.1.status == 200 <==>
      req.Some? && !faults.containsKey && ContainsKey(st, req.value.key)
      && (faults.probe || GetUser(st, ToLower(req.value.username)).Failure?)
      && rand.RandomBytes? && svc.argon.Derivable() && !faults.insert && !faults.readBack && !faults.deleteKey
    ensures r.1.Recovered? <==>
      req.Some? && !faults.containsKey && ContainsKey(st, req.value.key)
      && (faults.probe || GetUser(st, ToLower(req.value.username)).Failure?)
      && rand.RandomBytes? && !svc.argon.Derivable()
    ensures r.1.Recovered? ==> r.0 == st
    ensures r.1.Json? && r.1.status == 200 ==>
      var name := ToLower(req.value.username);
      var hash := Argon2.Hash(svc.argon, svc.kdf, req.value.password, rand).value;
      var created := User(NextRowId(UserIds(st.users)), name, hash);
      && r.0.users == st.users + [created]
      && !ContainsKey(r.0, req.value.key)
      && (forall k :: k != req.value.key ==> multiset(r.0.keys)[k] == multiset(st.keys)[k])
      && GetUser(r.0, name).Success?
      && r.1.body == TokenBody(GenerateToken(svc, GetUser(r.0, name).value))
      && (GetUser(st, name).Failure? ==> r.1.body == TokenBody(GenerateToken(svc, created)))
    ensures r.1.Json? || r.1.Recovered?
    ensures r.1.Json? && r.1.status != 200 ==> r.1.status in {400, 401, 409, 500}
    ensures r.0.images == st.images
    ensures r.0 != st ==> r.1.Json? && (r.1.status == 200 || (faults.readBack || faults.deleteKey))
  {
    match req
    case None => (st, Json(400, ErrorBody("invalid request")))
    case Some(rq) =>
      if faults.containsKey then (st, InternalError)
      else if !ContainsKey(st, rq.key) then (st, Json(401, ErrorBody("invalid key")))
      else
        var username := ToLower(rq.username);
        if !faults.probe && GetUser(st, username).Success? then (st, Json(409, ErrorBody("username already exists")))
        else
          match Argon2.Hash(svc.argon, svc.kdf, rq.password, rand)
          case Failure(e) => if e.SaltGenerationFailed? then (st, InternalError) else (st, Recovered)
          case Success(hash) =>
            if faults.insert then (st, InternalError)
            else
              var (st1, created) := CreateUser(st, username, hash);
              if faults.readBack then (st1, InternalError)
              else if faults.deleteKey then (st1, InternalError)
              else
                var st2 := DeleteKey(st1, rq.key);
                assert GetUser(st2, username) == created by { assert st2.users == st1.users; }
                (st2, Json(200, TokenBody(GenerateToken(svc, created.value))))
  }

  /**
   * `Login`. `lookupFails` is a database error other than `sql.ErrNoRows`; on
   * that error, and on an error from `Argon2.Verify`, the handler logs and
   * returns without writing a reply; a panic of the key derivation inside
   * `Verify` is `Recovered`.
   */
  function Login(svc: AuthService, st: Store, req: Option<LoginRequest>, lookupFails: bool): (r: Response)
    ensures req.None? ==> r == Json(400, ErrorBody("invalid request"))
    ensures req.Some? ==> (AttemptLogin(svc, st, req.value, lookupFails).Success? <==> r.Json? && r.status == 200)
    ensures req.Some? && AttemptLogin(svc, st, req.value, lookupFails).Success? ==>
      r == Json(200, TokenBody(GenerateToken(svc, AttemptLogin(svc, st, req.value, lookupFails).value)))
    ensures req.Some? ==>
      (AttemptLogin(svc, st, req.value, lookupFails) in {Failure(UserNotFound), Failure(InvalidPassword)}
       <==> r == Json(401, ErrorBody("invalid username or password")))
    ensures r == Recovered <==>
      req.Some? && AttemptLogin(svc, st, req.value, lookupFails) == Failure(VerifyFailed(Argon2.VerifyError.DerivationPanicked))
    ensures r.NothingWritten? <==>
      req.Some? && AttemptLogin(svc, st, req.value, lookupFails).Failure?
      && AttemptLogin(svc, st, req.value, lookupFails).error
         !in {UserNotFound, InvalidPassword, VerifyFailed(Argon2.VerifyError.DerivationPanicked)}
  {
    match req
    case None => Json(400, ErrorBody("invalid request"))
    case Some(rq) =>
      match AttemptLogin(svc, st, rq, lookupFails)
      case Failure(e) =>
        if e == UserNotFound || e == InvalidPassword then Json(401, ErrorBody("invalid username or password"))
        else if e == VerifyFailed(Argon2.VerifyError.DerivationPanicked) then Recovered
        else NothingWritten
      case Success(user) => Json(200, TokenBody(GenerateToken(svc, user)))
  }

  /**
   * `Refresh`: a fresh token for the id and name the presented bearer token
   * carries. Every failure path first calls `ErrorHandler` with a nil error,
   * whose `err.Error()` panics. On a header error nothing has been written
   * yet, so Recovery answers with a bare 500 (`Recovered`). On a token that
   * does not validate, `validateToken` has already written 401
   * "Unauthorized"; the panic then comes before the handler's own 401, and
   * the reply the client sees is `validateToken`'s.
   */
  function Refresh(svc: AuthService, header: string): (r: Response)
    ensures r.Json? || r.Recovered?
    ensures r.Json? ==> r.status == 200 || r.status == 401
    ensures r == Recovered <==> Bearer.ExtractToken(header).Failure?
    ensures r == Json(401, ErrorBody("Unauthorized")) <==>
      Bearer.ExtractToken(header).Success? && ValidateToken(svc, Bearer.ExtractToken(header).value).None?
    ensures r.Json? && r.status == 200 <==>
      Bearer.ExtractToken(header).Success? && ValidateToken(svc, Bearer.ExtractToken(header).value).Some?
    ensures r.Json? && r.status == 200 ==>
      var claims := svc.codec.deserialize(header[|Bearer.Prefix|..]).value.claims;
      r.body == TokenBody(GenerateToken(svc, User(claims["user_id"].n, claims["username"].s, "")))
  {
    match Bearer.ExtractToken(header)
    case Failure(_) => Recovered
    case Success(token) =>
      match ValidateToken(svc, token)
      case None => Json(401, ErrorBody("Unauthorized"))
      case Some(user) => Json(200, TokenBody(GenerateToken(svc, user)))
  }

  /** `GetKeys`: the key list for a caller presenting the administrator API key. */
  function GetKeys(svc: AuthService, st: Store, apiKeyHeader: string, readFails: bool): (r: Response)
    ensures apiKeyHeader != svc.apiKey ==> r == Json(401, ErrorBody("Unauthorized"))
    ensures apiKeyHeader == svc.apiKey && readFails ==> r == InternalError
    ensures r.Json? && r.status == 200 <==> apiKeyHeader == svc.apiKey && !readFails
    ensures r.Json? && r.status == 200 ==> r.body.KeysBody? && multiset(r.body.keys) == multiset(st.keys)
  {
    if apiKeyHeader != svc.apiKey then Json(401, ErrorBody("Unauthorized"))
    else if readFails then InternalError
    else Json(200, KeysBody(Db.GetKeys(st)))
  }

  /** `AddKey`: the administrator inserts one more registration key. */
  function AddKey(svc: AuthService, st: Store, apiKeyHeader: string, key: Option<string>, insertFails: bool)
    : (r: (Store, Response))
    ensures apiKeyHeader != svc.apiKey ==> r == (st, Json(401, ErrorBody("Unauthorized")))
    ensures apiKeyHeader == svc.apiKey && key.None? ==> r == (st, Json(400, ErrorBody("invalid request")))
    ensures apiKeyHeader == svc.apiKey && key.Some? && insertFails ==> r == (st, InternalError)
    ensures r.1 == Json(200, MessageBody("key added")) <==> apiKeyHeader == svc.apiKey && key.Some? && !insertFails
    ensures r.1.status == 200 ==>
      multiset(r.0.keys) == multiset(st.keys) + multiset{key.value} && r.0.users == st.users
  {
    if apiKeyHeader != svc.apiKey then (st, Json(401, ErrorBody("Unauthorized")))
    else if key.None? then (st, Json(400, ErrorBody("invalid request")))
    else if insertFails then (st, InternalError)
    else (InsertKey(st, key.value), Json(200, MessageBody("key added")))
  }

  /** A registration key admits one account: after a successful sign-up the same key is refused. */
  lemma RegistrationKeySingleUse(svc: AuthService, st: Store, req: RegisterRequest, faults: RegisterFaults,
                                 rand: Argon2.Entropy, again: RegisterRequest, rand2: Argon2.Entropy)
    requires rand.RandomBytes? ==> |rand.bytes| == Argon2.SaltLen
    requires rand2.RandomBytes? ==> |rand2.bytes| == Argon2.SaltLen
    requires Register(svc, st, Some(req), faults, rand).1.Json? && Register(svc, st, Some(req), faults, rand).1.status == 200
    requires again.key == req.key
    ensures var st' := Register(svc, st, Some(req), faults, rand).0;
      Register(svc, st', Some(again), NoRegisterFaults, rand2) == (st', Json(401, ErrorBody("invalid key")))
  {
  }

  /**
   * The users table has no UNIQUE constraint: when the taken-name probe
   * fails, a second account with an existing name is inserted, and the
   * read-back returns the older row, so the 200 carries the older account's
   * token.
   */
  lemma ProbeFailureIssuesOlderToken(svc: AuthService, st: Store, req: RegisterRequest, rand: Argon2.Entropy)
    requires rand.RandomBytes? && |rand.bytes| == Argon2.SaltLen && svc.argon.Derivable()
    requires ContainsKey(st, req.key) && GetUser(st, ToLower(req.username)).Success?
    ensures var (st', resp) := Register(svc, st, Some(req), NoRegisterFaults.(probe := true), rand);
      && resp == Json(200, TokenBody(GenerateToken(svc, GetUser(st, ToLower(req.username)).value)))
      && |st'.users| == |st.users| + 1
  {
    var name := ToLower(req.username);
    var hash := Argon2.Hash(svc.argon, svc.kdf, req.password, rand).value;
    assert CreateUser(st, name, hash).1 == GetUser(st, name);
  }

  /**
   * The steps are not a transaction: when `DeleteKey` fails, the account
   * already exists and the key is still usable, yet the caller sees 500.
   */
  lemma DeleteKeyFailureKeepsAccount(svc: AuthService, st: Store, req: RegisterRequest, rand: Argon2.Entropy)
    requires rand.RandomBytes? && |rand.bytes| == Argon2.SaltLen && svc.argon.Derivable()
    requires ContainsKey(st, req.key) && GetUser(st, ToLower(req.username)).Failure?
    ensures var (st', resp) := Register(svc, st, Some(req), NoRegisterFaults.(deleteKey := true), rand);
      && resp == InternalError
      && |st'.users| == |st.users| + 1
      && GetUser(st', ToLower(req.username)).Success?
      && ContainsKey(st', req.key)
  {
    var name := ToLower(req.username);
    var hash := Argon2.Hash(svc.argon, svc.kdf, req.password, rand).value;
    CreateThenGetUser(st, name, hash);
  }

  /**
   * An account registered under "Alice" can log in as "ALICE" with the same
   * password, and refreshing the token obtained carries the same identity.
   */
  lemma RegisterLoginRefresh(svc: AuthService, st: Store, key: string, password: string, salt: seq<Base64.byte>)
    requires Sound(svc.codec) && Argon2.DerivesKeyLen(svc.kdf)
    requires svc.argon.FitsGoTypes() && svc.argon.Derivable()
    requires |salt| == Argon2.SaltLen
    requires ContainsKey(st, key) && GetUser(st, "alice").Failure?
    ensures var (st1, reg) := Register(svc, st, Some(RegisterRequest("Alice", password, key)), NoRegisterFaults, Argon2.RandomBytes(salt));
      var user := User(NextRowId(UserIds(st.users)), "alice", "");
      && reg == Json(200, TokenBody(GenerateToken(svc, User(user.id, "alice", st1.users[|st.users|].password))))
      && Login(svc, st1, Some(LoginRequest("ALICE", password)), false).Json?
      && Login(svc, st1, Some(LoginRequest("ALICE", password)), false).status == 200
      && Refresh(svc, Bearer.Prefix + Login(svc, st1, Some(LoginRequest("ALICE", password)), false).body.token)
         == Json(200, TokenBody(GenerateToken(svc, user)))
  {
    assert ToLower("Alice") == "alice";
    assert ToLower("ALICE") == "alice";
    var rand := Argon2.RandomBytes(salt);
    var hash := Argon2.Hash(svc.argon, svc.kdf, password, rand).value;
    var created := User(NextRowId(UserIds(st.users)), "alice", hash);
    var (st1, reg) := Register(svc, st, Some(RegisterRequest("Alice", password, key)), NoRegisterFaults, rand);
    assert st1.users == st.users + [created];
    CreateThenGetUser(st, "alice", hash);
    assert GetUser(st1, "alice") == Success(created) by {
      assert st1.users == CreateUser(st, "alice", hash).0.users;
    }
    LoginWithHashedPassword(svc, st1, LoginRequest("ALICE", password), salt);
    var login := Login(svc, st1, Some(LoginRequest("ALICE", password)), false);
    assert login == Json(200, TokenBody(GenerateToken(svc, created)));
    Bearer.ExtractTokenOf(login.body.token);
    ValidateGenerated(svc, created);
  }
}

=== FILE: auth_helpers.dfy ===
/**
 * The helpers of internal/auth/helpers.go: credential checking against the
 * stored Argon2 hash, issuing the HS256 session token, and validating a
 * presented token back into a user.
 */
module AuthHelpers {
  import opened Wrappers
  import opened Text
  import opened Db
  import opened Jwt
  import Argon2

  /**
   * `AuthService` with its collaborators: the token library, the JWT signing
   * key, the administrator API key, the Argon2 key derivation and cost
   * settings, and the clock `jwt.Parse` consults (Unix seconds).
   */
  datatype AuthService = AuthService(
    codec: Codec,
    jwtKey: Key,
    apiKey: string,
    kdf: Argon2.Kdf,
    argon: Argon2.Config,
    now: int)

  datatype LoginRequest = LoginRequest(username: string, password: string)

  /**
   * Why `attemptLogin` gave no user: the two credential errors of
   * internal/auth/consts.go, a database error other than `sql.ErrNoRows`,
   * or an error from `Argon2.Verify` on the stored hash.
   */
  datatype LoginError = UserNotFound | InvalidPassword | LookupFailed | VerifyFailed(cause: Argon2.VerifyError)

  /** `verifyPassword`: `Argon2.Verify`, an error reported as `(false, err)`. */
  function VerifyPassword(svc: AuthService, storedHash: string, provided: string): Result<bool, Argon2.VerifyError> {
    Argon2.Verify(storedHash, provided, svc.kdf)
  }

  /**
   * `attemptLogin`: look the lower-cased name up, then check the password.
   * `lookupFails` stands for a database error other than `sql.ErrNoRows`.
   */
  function AttemptLogin(svc: AuthService, st: Store, req: LoginRequest, lookupFails: bool): (r: Result<User, LoginError>)
    ensures lookupFails ==> r == Failure(LookupFailed)
    ensures !lookupFails && GetUser(st, ToLower(req.username)).Failure? ==> r == Failure(UserNotFound)
    ensures r.Success? <==>
      !lookupFails && GetUser(st, ToLower(req.username)).Success?
      && VerifyPassword(svc, GetUser(st, ToLower(req.username)).value.password, req.password) == Success(true)
    ensures r.Success? ==> r.value == GetUser(st, ToLower(req.username)).value
    ensures r == Failure(InvalidPassword) <==>
      !lookupFails && GetUser(st, ToLower(req.username)).Success?
      && VerifyPassword(svc, GetUser(st, ToLower(req.username)).value.password, req.password) == Success(false)
    ensures !lookupFails && GetUser(st, ToLower(req.username)).Success?
      && VerifyPassword(svc, GetUser(st, ToLower(req.username)).value.password, req.password).Failure?
      ==> r == Failure(VerifyFailed(VerifyPassword(svc, GetUser(st, ToLower(req.username)).value.password, req.password).error))
  {
    var username := ToLower(req.username);
    if lookupFails then Failure(LookupFailed)
    else
      match GetUser(st, username)
      case Failure(_) => Failure(UserNotFound)
      case Success(user) =>
        match VerifyPassword(svc, user.password, req.password)
        case Failure(e) => Failure(VerifyFailed(e))
        case Success(valid) => if !valid then Failure(InvalidPassword) else Success(user)
  }

  /** The claims every issued token carries: exactly the username and the numeric user id. */
  function ClaimsOf(user: User): Claims {
    map["username" := Jwt.Text(user.username), "user_id" := Number(user.id)]
  }

  /**
   * `generateAndSendToken`, and the identical inline token code of
   * `Register` and `Refresh`: an HS256 token over `ClaimsOf(user)`.
   */
  function GenerateToken(svc: AuthService, user: User): (token: string)
    ensures Sound(svc.codec) ==>
      svc.codec.deserialize(token) == Some(Token("HS256", ClaimsOf(user), svc.codec.mac("HS256", ClaimsOf(user), svc.jwtKey)))
    ensures Sound(svc.codec) ==> token != ""
  {
    SignHS256(svc.codec, ClaimsOf(user), svc.jwtKey)
  }

  /** The keyFunc callback: the JWT key for an HMAC method, an error for any other. */
  function HmacKeyFunc(key: Key): SigningMethod -> Option<Key> {
    (m: SigningMethod) => if IsHmac(m) then Some(key) else None
  }

  /** The claims make a user: `user_id` is a number and `username` a string. */
  predicate CarriesUser(claims: Claims) {
    "user_id" in claims && claims["user_id"].Number? && "username" in claims && claims["username"].Text?
  }

  /**
   * `validateToken`: None is the source's `(db.User{}, false)` after its 401
   * reply. The rebuilt user has no password.
   */
  function ValidateToken(svc: AuthService, text: string): (r: Option<User>)
    ensures r.Some? <==>
      Parse(svc.codec, text, HmacKeyFunc(svc.jwtKey), svc.now).valid
      && CarriesUser(Parse(svc.codec, text, HmacKeyFunc(svc.jwtKey), svc.now).claims)
    ensures r.Some? ==>
      var claims := svc.codec.deserialize(text).value.claims;
      r.value == User(claims["user_id"].n, claims["username"].s, "")
    ensures r.Some? ==>
      var t := svc.codec.deserialize(text).value;
      IsHmac(MethodByName(t.alg).value) && t.signature == svc.codec.mac(t.alg, t.claims, svc.jwtKey)
  {
    var parsed := Parse(svc.codec, text, HmacKeyFunc(svc.jwtKey), svc.now);
    if parsed.err.Some? then None
    else if !parsed.valid then None
    else if !("user_id" in parsed.claims && parsed.claims["user_id"].Number?) then None
    else if !("username" in parsed.claims && parsed.claims["username"].Text?) then None
    else Some(User(parsed.claims["user_id"].n, parsed.claims["username"].s, ""))
  }

  /** A token the service issued validates back to the same id and name, at any time. */
  lemma ValidateGenerated(svc: AuthService, user: User)
    requires Sound(svc.codec)
    ensures ValidateToken(svc, GenerateToken(svc, user)) == Some(User(user.id, user.username, ""))
  {
    NoTimeClaimsValid(ClaimsOf(user), svc.now);
    ParseSigned(svc.codec, ClaimsOf(user), svc.jwtKey, HmacKeyFunc(svc.jwtKey), svc.now);
  }

  /** A token whose signature is not the MAC under the service key is refused. */
  lemma ValidateRejectsForgery(svc: AuthService, text: string)
    requires svc.codec.deserialize(text).Some?
    requires var t := svc.codec.deserialize(text).value; t.signature != svc.codec.mac(t.alg, t.claims, svc.jwtKey)
    ensures ValidateToken(svc, text) == None
  {
  }

  /** A token naming a non-HMAC algorithm ("none", RS256, ...) is refused whatever it carries. */
  lemma ValidateRejectsOtherAlgorithms(svc: AuthService, text: string)
    requires svc.codec.deserialize(text).Some?
    requires var m := MethodByName(svc.codec.deserialize(text).value.alg); m.None? || !IsHmac(m.value)
    ensures ValidateToken(svc, text) == None
  {
  }

  /** Logging in with the password a stored hash was made from yields that stored row. */
  lemma LoginWithHashedPassword(svc: AuthService, st: Store, req: LoginRequest, salt: seq<Base64.byte>)
    requires svc.argon.FitsGoTypes() && svc.argon.Derivable() && |salt| == Argon2.SaltLen && Argon2.DerivesKeyLen(svc.kdf)
    requires GetUser(st, ToLower(req.username)).Success?
    requires GetUser(st, ToLower(req.username)).value.password
      == Argon2.Hash(svc.argon, svc.kdf, req.password, Argon2.RandomBytes(salt)).value
    ensures AttemptLogin(svc, st, req, false) == Success(GetUser(st, ToLower(req.username)).value)
  {
    Argon2.VerifyHash(svc.argon, svc.kdf, req.password, salt);
  }
}

=== FILE: base64.dfy ===
/**
 * Go's `base64.RawStdEncoding`: the standard alphabet of section 4 of RFC 4648,
 * written without the `=` padding that section 3.2 of RFC 4648 lets an
 * encoding omit. The decoder is Go's lenient one: it skips CR and LF, rejects
 * a final quantum of one character and any character outside the alphabet,
 * and does not insist that the unused low bits of a final quantum are zero.
 */
module Base64 {
  import opened Wrappers

  type byte = x: int | 0 <= x < 256
  type sextet = x: int | 0 <= x < 64

  datatype DecodeError = CorruptInput

  /** Value 0..63 to its character in the RFC 4648 table. */
  function CharOf(i: sextet): (c: char)
  {
    if i < 26 then ('A' as int + i) as char
    else if i < 52 then ('a' as int + (i - 26)) as char
    else if i < 62 then ('0' as int + (i - 52)) as char
    else if i == 62 then '+'
    else '/'
  }

  predicate IsAlphabet(c: char) {
    ('A' <= c <= 'Z') || ('a' <= c <= 'z') || ('0' <= c <= '9') || c == '+' || c == '/'
  }

  /** Character of the alphabet back to its value. */
  function ValueOf(c: char): (i: sextet)
    requires IsAlphabet(c)
    ensures CharOf(i) == c
  {
    if 'A' <= c <= 'Z' then c as int - 'A' as int
    else if 'a' <= c <= 'z' then c as int - 'a' as int + 26
    else if '0' <= c <= '9' then c as int - '0' as int + 52
    else if c == '+' then 62
    else 63
  }

  lemma CharOfInAlphabet(i: sextet)
    ensures IsAlphabet(CharOf(i)) && ValueOf(CharOf(i)) == i
  {
  }

  /** Three bytes to four characters (a full quantum). */
  function EncodeQuantum(b0: byte, b1: byte, b2: byte): string {
    [CharOf(b0 / 4), CharOf((b0 % 4) * 16 + b1 / 16), CharOf((b1 % 16) * 4 + b2 / 64), CharOf(b2 % 64)]
  }

  function Encode(b: seq<byte>): (s: string)
    decreases |b|
  {
    if |b| == 0 then ""
    else if |b| == 1 then [CharOf(b[0] / 4), CharOf((b[0] % 4) * 16)]
    else if |b| == 2 then [CharOf(b[0] / 4), CharOf((b[0] % 4) * 16 + b[1] / 16), CharOf((b[1] % 16) * 4)]
    else EncodeQuantum(b[0], b[1], b[2]) + Encode(b[3..])
  }

  /** Length of the unpadded encoding of n bytes: ceil(4n/3). */
  function EncodedLen(n: nat): nat {
    (4 * n + 2) / 3
  }

  predicate AllAlphabet(s: string) {
    forall i :: 0 <= i < |s| ==> IsAlphabet(s[i])
  }

  /** Decoding of an input already stripped of CR/LF. */
  function DecodeStripped(s: string): (r: Result<seq<byte>, DecodeError>)
    ensures r.Success? ==> AllAlphabet(s) && |s| % 4 != 1
    decreases |s|
  {
    if |s| == 0 then Success([])
    else if |s| == 1 then Failure(CorruptInput)
    else if !IsAlphabet(s[0]) || !IsAlphabet(s[1]) then Failure(CorruptInput)
    else
      var c0 := ValueOf(s[0]);
      var c1 := ValueOf(s[1]);
      if |s| == 2 then Success([c0 * 4 + c1 / 16])
      else if !IsAlphabet(s[2]) then Failure(CorruptInput)
      else
        var c2 := ValueOf(s[2]);
        if |s| == 3 then Success([c0 * 4 + c1 / 16, (c1 % 16) * 16 + c2 / 4])
        else if !IsAlphabet(s[3]) then Failure(CorruptInput)
        else
          var c3 := ValueOf(s[3]);
          match DecodeStripped(s[4..])
          case Failure(e) => Failure(e)
          case Success(rest) =>
            assert forall i :: 4 <= i < |s| ==> s[i] == s[4..][i - 4];
            Success([c0 * 4 + c1 / 16, (c1 % 16) * 16 + c2 / 4, (c2 % 4) * 64 + c3] + rest)
  }

  function StripNewlines(s: string): (r: string)
    ensures '\r' !in r && '\n' !in r
  {
    if |s| == 0 then ""
    else if s[0] == '\r' || s[0] == '\n' then StripNewlines(s[1..])
    else [s[0]] + StripNewlines(s[1..])
  }

  /** `RawStdEncoding.DecodeString`. */
  function Decode(s: string): (r: Result<seq<byte>, DecodeError>)
    ensures r.Success? ==> AllAlphabet(StripNewlines(s))
    ensures |StripNewlines(s)| % 4 == 1 ==> r.Failure?
  {
    DecodeStripped(StripNewlines(s))
  }

  /** Every character of an encoding is in the alphabet; in particular none is `$`. */
  lemma {:induction false} EncodeAlphabet(b: seq<byte>)
    ensures AllAlphabet(Encode(b))
    ensures '$' !in Encode(b) && '\r' !in Encode(b) && '\n' !in Encode(b)
    ensures |Encode(b)| == EncodedLen(|b|)
    decreases |b|
  {
    if |b| >= 3 {
      EncodeAlphabet(b[3..]);
      var q := EncodeQuantum(b[0], b[1], b[2]);
      assert Encode(b) == q + Encode(b[3..]);
      forall i | 0 <= i < |Encode(b)| ensures IsAlphabet(Encode(b)[i]) {
        if i >= 4 {
          assert Encode(b)[i] == Encode(b[3..])[i - 4];
        }
      }
    }
  }

  lemma {:induction false} StripNewlinesIdentity(s: string)
    requires '\r' !in s && '\n' !in s
    ensures StripNewlines(s) == s
  {
    if |s| > 0 {
      StripNewlinesIdentity(s[1..]);
      assert [s[0]] + s[1..] == s;
    }
  }

  lemma QuantumRoundTrip(b0: byte, b1: byte, b2: byte)
    ensures var q := EncodeQuantum(b0, b1, b2);
      && ValueOf(q[0]) * 4 + ValueOf(q[1]) / 16 == b0
      && (ValueOf(q[1]) % 16) * 16 + ValueOf(q[2]) / 4 == b1
      && (ValueOf(q[2]) % 4) * 64 + ValueOf(q[3]) == b2
  {
    CharOfInAlphabet(b0 / 4);
    CharOfInAlphabet((b0 % 4) * 16 + b1 / 16);
    CharOfInAlphabet((b1 % 16) * 4 + b2 / 64);
    CharOfInAlphabet(b2 % 64);
  }

  lemma DecodeOneByteTail(b0: byte)
    ensures DecodeStripped(Encode([b0])) == Success([b0])
  {
    CharOfInAlphabet(b0 / 4);
    CharOfInAlphabet((b0 % 4) * 16);
  }

  lemma DecodeTwoByteTail(b0: byte, b1: byte)
    ensures DecodeStripped(Encode([b0, b1])) == Success([b0, b1])
  {
    var c1 := (b0 % 4) * 16 + b1 / 16;
    var c2 := (b1 % 16) * 4;
    CharOfInAlphabet(b0 / 4);
    CharOfInAlphabet(c1);
    CharOfInAlphabet(c2);
    assert c1 / 16 == b0 % 4 && c1 % 16 == b1 / 16;
    assert c2 / 4 == b1 % 16;
    var s := Encode([b0, b1]);
    assert s == [CharOf(b0 / 4), CharOf(c1), CharOf(c2)];
  }

  /** Decoding an encoding gives back the bytes (RFC 4648 section 4, unpadded). */
  lemma {:induction false} DecodeEncodeStripped(b: seq<byte>)
    ensures DecodeStripped(Encode(b)) == Success(b)
    decreases |b|
  {
    if |b| == 1 {
      assert b == [b[0]];
      DecodeOneByteTail(b[0]);
    } else if |b| == 2 {
      assert b == [b[0], b[1]];
      DecodeTwoByteTail(b[0], b[1]);
    } else if |b| >= 3 {
      DecodeEncodeStripped(b[3..]);
      DecodeEncodeLong(b);
    }
  }

  /** The step of the round trip: a leading quantum in front of an encoding that already round-trips. */
  lemma DecodeEncodeLong(b: seq<byte>)
    requires |b| >= 3 && DecodeStripped(Encode(b[3..])) == Success(b[3..])
    ensures DecodeStripped(Encode(b)) == Success(b)
  {
    QuantumThenRest(b[0], b[1], b[2], Encode(b[3..]), b[3..]);
    EncodeSplits(b);
    HeadAndTail(b);
  }

  lemma HeadAndTail(b: seq<byte>)
    requires |b| >= 3
    ensures [b[0], b[1], b[2]] + b[3..] == b
  {
  }

  lemma EncodeSplits(b: seq<byte>)
    requires |b| >= 3
    ensures Encode(b) == EncodeQuantum(b[0], b[1], b[2]) + Encode(b[3..])
  {
  }

  lemma QuantumThenRest(b0: byte, b1: byte, b2: byte, rest: string, r: seq<byte>)
    requires DecodeStripped(rest) == Success(r)
    ensures DecodeStripped(EncodeQuantum(b0, b1, b2) + rest) == Success([b0, b1, b2] + r)
  {
    var q := EncodeQuantum(b0, b1, b2);
    QuantumRoundTrip(b0, b1, b2);
    CharOfInAlphabet(b0 / 4);
    CharOfInAlphabet((b0 % 4) * 16 + b1 / 16);
    CharOfInAlphabet((b1 % 16) * 4 + b2 / 64);
    CharOfInAlphabet(b2 % 64);
    DecodeQuantumThenRest(q, rest);
  }

  /** A leading full quantum decodes to three bytes in front of the rest. */
  lemma DecodeQuantumThenRest(q: string, rest: string)
    requires |q| == 4 && IsAlphabet(q[0]) && IsAlphabet(q[1]) && IsAlphabet(q[2]) && IsAlphabet(q[3])
    requires DecodeStripped(rest).Success?
    ensures DecodeStripped(q + rest) == Success(
      [ ValueOf(q[0]) * 4 + ValueOf(q[1]) / 16
      , (ValueOf(q[1]) % 16) * 16 + ValueOf(q[2]) / 4
      , (ValueOf(q[2]) % 4) * 64 + ValueOf(q[3])] + DecodeStripped(rest).value)
  {
    var s := q + rest;
    assert s[4..] == rest;
    assert s[0] == q[0] && s[1] == q[1] && s[2] == q[2] && s[3] == q[3];
  }

  lemma DecodeEncode(b: seq<byte>)
    ensures Decode(Encode(b)) == Success(b)
  {
    EncodeAlphabet(b);
    StripNewlinesIdentity(Encode(b));
    DecodeEncodeStripped(b);
  }

  /**
   * Recovering a byte count as `len * 3 / 4` from an unpadded encoding's
   * length is exact, not an approximation.
   */
  lemma EncodedLenRecovery(n: nat)
    ensures EncodedLen(n) * 3 / 4 == n
  {
    var q, r := n / 3, n % 3;
    assert n == 3 * q + r;
    if r == 0 {
      assert EncodedLen(n) == 4 * q;
    } else if r == 1 {
      assert EncodedLen(n) == 4 * q + 2;
    } else {
      assert EncodedLen(n) == 4 * q + 3;
    }
  }

  lemma KeyLengthFromEncoding(b: seq<byte>)
    ensures |Encode(b)| * 3 / 4 == |b|
  {
    EncodeAlphabet(b);
    EncodedLenRecovery(|b|);
  }
}

=== FILE: bearer.dfy ===
/**
 * The `Authorization: Bearer <token>` header form of section 2.1 of RFC 6750,
 * as `Refresh` (internal/auth/handlers.go) and `AuthMiddleware`
 * (internal/server/middleware.go) both parse it: the exact, case-sensitive
 * prefix "Bearer " with one space, and everything after it is the token.
 */
module Bearer {
  import opened Wrappers
  import opened Text

  const Prefix: string := "Bearer "

  datatype HeaderError = MissingHeader | NotBearer | MissingToken

  /** The `{"error": ...}` text each rejection is answered with. */
  function Message(e: HeaderError): string {
    match e
    case MissingHeader => "Authorization header is missing"
    case NotBearer => "Authorization header must start with Bearer"
    case MissingToken => "Token is missing"
  }

  function ExtractToken(header: string): (r: Result<string, HeaderError>)
    ensures header == "" ==> r == Failure(MissingHeader)
    ensures header != "" && !HasPrefix(header, Prefix) ==> r == Failure(NotBearer)
    ensures header == Prefix ==> r == Failure(MissingToken)
    ensures r.Success? <==> HasPrefix(header, Prefix) && |header| > |Prefix|
    ensures r.Success? ==> header == Prefix + r.value && r.value == header[|Prefix|..]
  {
    if header == "" then Failure(MissingHeader)
    else if !HasPrefix(header, Prefix) then Failure(NotBearer)
    else
      var token := header[|Prefix|..];
      if token == "" then Failure(MissingToken) else Success(token)
  }

  /** A header built from a non-empty token yields exactly that token. */
  lemma ExtractTokenOf(token: string)
    requires token != ""
    ensures ExtractToken(Prefix + token) == Success(token)
  {
    assert (Prefix + token)[..|Prefix|] == Prefix;
    assert (Prefix + token)[|Prefix|..] == token;
  }

  /** The prefix test is case-sensitive and wants the space: "bearer x" and "Bearer" are refused. */
  lemma PrefixIsExact()
    ensures ExtractToken("bearer x") == Failure(NotBearer)
    ensures ExtractToken("Bearer") == Failure(NotBearer)
    ensures ExtractToken("Bearerx") == Failure(NotBearer)
  {
    assert "bearer x"[..7] != Prefix by { assert "bearer x"[0] != Prefix[0]; }
    assert "Bearerx"[..7] != Prefix by { assert "Bearerx"[6] != Prefix[6]; }
  }
}

=== FILE: db_pictures.dfy ===
/** The image-table operations of pkg/db/pictures.go on the in-memory `images` relation. */
module DbPictures {
  import opened Wrappers
  import opened Db

  /** `GetImages`: every row, in table order. */
  function GetImages(st: Store): seq<Image> {
    st.images
  }

  /**
   * `GetImagesPaginated`: `LIMIT ? OFFSET ?` with SQLite's reading of the
   * bounds: a negative limit means no limit, a negative offset counts as 0.
   */
  function GetImagesPaginated(st: Store, limit: int, offset: int): (r: seq<Image>)
    ensures limit >= 0 && offset >= 0 ==>
      |r| == if offset >= |st.images| then 0 else Min(limit, |st.images| - offset)
    ensures var o := if offset < 0 then 0 else Min(offset, |st.images|);
      o + |r| <= |st.images| && r == GetImages(st)[o..o + |r|]
  {
    var images := GetImages(st);
    var start := if offset < 0 then 0 else Min(offset, |images|);
    var rest := images[start..];
    if limit < 0 || limit >= |rest| then rest else rest[..limit]
  }

  function Min(a: int, b: int): int {
    if a <= b then a else b
  }

  /** `CreateImage`: insert one row with a fresh id. */
  function CreateImage(st: Store, uploadedBy: int, name: string, createdAt: int): (r: Store)
    ensures |r.images| == |st.images| + 1 && r.images[..|st.images|] == st.images
    ensures var img := r.images[|st.images|];
      img.uploadedBy == uploadedBy && img.name == name && img.createdAt == createdAt
      && forall i :: 0 <= i < |st.images| ==> st.images[i].id < img.id
    ensures r.users == st.users && r.keys == st.keys
  {
    st.(images := st.images + [Image(NextRowId(ImageIds(st.images)), uploadedBy, name, createdAt)])
  }

  /** The rows whose id differs from id, in order. */
  function ImagesWithoutId(images: seq<Image>, id: int): (r: seq<Image>)
    ensures forall i :: 0 <= i < |r| ==> r[i].id != id
    ensures forall x: Image :: x.id != id ==> multiset(r)[x] == multiset(images)[x]
  {
    if |images| == 0 then []
    else
      var rest := ImagesWithoutId(images[1..], id);
      assert images == [images[0]] + images[1..];
      if images[0].id == id then rest else [images[0]] + rest
  }

  /** `DeleteImage`: `DELETE FROM images WHERE id = ?`. */
  function DeleteImage(st: Store, id: int): (r: Store)
    ensures forall i :: 0 <= i < |r.images| ==> r.images[i].id != id
    ensures forall x: Image :: x.id != id ==> multiset(r.images)[x] == multiset(st.images)[x]
    ensures r.users == st.users && r.keys == st.keys
  {
    st.(images := ImagesWithoutId(st.images, id))
  }

  /** `GetImage`: the row with that id, `sql.ErrNoRows` when there is none. */
  function GetImage(st: Store, id: int): (r: Result<Image, DbError>)
    ensures r.Success? ==> r.value in st.images && r.value.id == id
    ensures r.Failure? <==> forall i :: 0 <= i < |st.images| ==> st.images[i].id != id
  {
    FirstWithId(st.images, id)
  }

  function FirstWithId(images: seq<Image>, id: int): (r: Result<Image, DbError>)
    ensures r.Success? ==> r.value in images && r.value.id == id
    ensures r.Failure? <==> forall i :: 0 <= i < |images| ==> images[i].id != id
  {
    if |images| == 0 then Failure(NoRows)
    else if images[0].id == id then Success(images[0])
    else
      var r := FirstWithId(images[1..], id);
      assert forall i :: 1 <= i < |images| ==> images[i] == images[1..][i - 1];
      r
  }

  /** `GetImagesByUser`: `WHERE uploaded_by = ?`, in table order. */
  function GetImagesByUser(st: Store, userId: int): (r: seq<Image>)
    ensures forall i :: 0 <= i < |r| ==> r[i].uploadedBy == userId
    ensures forall x: Image :: x.uploadedBy == userId ==> multiset(r)[x] == multiset(st.images)[x]
  {
    UploadedBy(st.images, userId)
  }

  function UploadedBy(images: seq<Image>, userId: int): (r: seq<Image>)
    ensures forall i :: 0 <= i < |r| ==> r[i].uploadedBy == userId
    ensures forall x: Image :: x.uploadedBy == userId ==> multiset(r)[x] == multiset(images)[x]
  {
    if |images| == 0 then []
    else
      var n := |images| - 1;
      var init := UploadedBy(images[..n], userId);
      assert images == images[..n] + [images[n]];
      if images[n].uploadedBy == userId then init + [images[n]] else init
  }

  /** Two consecutive pages make up the page that spans both. */
  lemma PagesConcatenate(st: Store, l1: nat, l2: nat, offset: nat)
    ensures GetImagesPaginated(st, l1, offset) + GetImagesPaginated(st, l2, offset + l1)
         == GetImagesPaginated(st, l1 + l2, offset)
  {
    var images := st.images;
    if offset + l1 <= |images| {
      if offset + l1 + l2 <= |images| {
        assert images[offset..][..l1] + images[offset + l1..][..l2] == images[offset..][..l1 + l2];
      } else {
        assert images[offset..][..l1] + images[offset + l1..] == images[offset..];
      }
    }
  }

  /** An image created by a user is appended to that user's images; other users' lists are unchanged. */
  lemma CreateImageVisibleToOwner(st: Store, uploadedBy: int, name: string, createdAt: int, userId: int)
    ensures var st' := CreateImage(st, uploadedBy, name, createdAt);
      GetImagesByUser(st', userId)
        == GetImagesByUser(st, userId) + (if userId == uploadedBy then [st'.images[|st.images|]] else [])
  {
    var st' := CreateImage(st, uploadedBy, name, createdAt);
    assert st'.images == st.images + [st'.images[|st.images|]];
    UploadedByAppend(st.images, st'.images[|st.images|], userId);
  }

  lemma UploadedByAppend(images: seq<Image>, img: Image, userId: int)
    ensures UploadedBy(images + [img], userId)
         == UploadedBy(images, userId) + (if img.uploadedBy == userId then [img] else [])
  {
    assert (images + [img])[..|images|] == images;
  }
}

=== FILE: db_sqlite.dfy ===
/**
 * pkg/db/sqlite.go: the migration that seeds registration keys, `genKeys`,
 * and `GetTotalPictures`. Table creation uses `CREATE TABLE IF NOT EXISTS`,
 * so only its success or failure matters to the model.
 */
module DbSqlite {
  import opened Wrappers
  import opened Db
  import DbPictures

  /** How many keys a migration seeds. */
  const SeedKeyCount: nat := 3

  /** `genKeys(n)`: n seeded UUID strings; uuids(i) is what the i-th `uuid.NewString` call returns. */
  method GenKeys(n: nat, uuids: nat -> string) returns (keys: seq<string>)
    ensures |keys| == n
    ensures forall i :: 0 <= i < n ==> keys[i] == uuids(i)
  {
    keys := [];
    var i := 0;
    while i < n
      invariant 0 <= i <= n
      invariant |keys| == i
      invariant forall j :: 0 <= j < i ==> keys[j] == uuids(j)
    {
      keys := keys + [uuids(i)];
      i := i + 1;
    }
  }

  /** Where a migration run breaks down, if it does. */
  datatype MigrateFault = NoFault | CreateTablesFails | InsertFails(index: nat)

  datatype MigrateError = MigrateError

  /** The inserts of the seeding loop, stopping at the first failing one. */
  function InsertKeys(st: Store, keys: seq<string>, failAt: Option<nat>): (r: (Store, Option<MigrateError>))
    ensures r.0.users == st.users && r.0.images == st.images
    ensures failAt.Some? && failAt.value < |keys| ==>
      r.0.keys == st.keys + keys[..failAt.value] && r.1 == Some(MigrateError)
    ensures !(failAt.Some? && failAt.value < |keys|) ==> r.0.keys == st.keys + keys && r.1.None?
    decreases |keys|
  {
    if |keys| == 0 then (st, None)
    else if failAt == Some(0) then (st, Some(MigrateError))
    else
      var next := match failAt case None => None case Some(k) => Some(k - 1);
      var r := InsertKeys(InsertKey(st, keys[0]), keys[1..], next);
      assert [keys[0]] + keys[1..] == keys;
      assert failAt.Some? && failAt.value < |keys| ==> [keys[0]] + keys[1..][..failAt.value - 1] == keys[..failAt.value];
      r
  }

  /** `Migrate`, given the keys its `genKeys(3)` call produced. */
  function Migrate(st: Store, seeded: seq<string>, fault: MigrateFault): (r: (Store, Option<MigrateError>))
    requires |seeded| == SeedKeyCount
    ensures fault.NoFault? ==> r == (st.(keys := st.keys + seeded), None)
    ensures fault.CreateTablesFails? ==> r == (st, Some(MigrateError))
    ensures fault.InsertFails? && fault.index < SeedKeyCount ==>
      r.1.Some? && r.0 == st.(keys := st.keys + seeded[..fault.index])
  {
    match fault
    case CreateTablesFails => (st, Some(MigrateError))
    case NoFault => InsertKeys(st, seeded, None)
    case InsertFails(k) => InsertKeys(st, seeded, Some(k))
  }

  /** Several fault-free migrations in a row. */
  function MigrateRuns(st: Store, batches: seq<seq<string>>): Store
    requires forall i :: 0 <= i < |batches| ==> |batches[i]| == SeedKeyCount
    decreases |batches|
  {
    if |batches| == 0 then st
    else MigrateRuns(Migrate(st, batches[0], NoFault).0, batches[1..])
  }

  /**
   * Migration is not idempotent for keys: k fault-free runs add 3k rows and
   * leave the earlier rows in place.
   */
  lemma {:induction false} MigrateRunsAddKeys(st: Store, batches: seq<seq<string>>)
    requires forall i :: 0 <= i < |batches| ==> |batches[i]| == SeedKeyCount
    ensures |MigrateRuns(st, batches).keys| == |st.keys| + SeedKeyCount * |batches|
    ensures MigrateRuns(st, batches).keys[..|st.keys|] == st.keys
    decreases |batches|
  {
    if |batches| > 0 {
      var st1 := Migrate(st, batches[0], NoFault).0;
      MigrateRunsAddKeys(st1, batches[1..]);
      assert st1.keys[..|st.keys|] == st.keys;
      var after := MigrateRuns(st1, batches[1..]).keys;
      assert after[..|st.keys|] == after[..|st1.keys|][..|st.keys|];
    }
  }

  /** `GetTotalPictures`: `SELECT COUNT(*) FROM images`. */
  function GetTotalPictures(st: Store): (n: nat)
    ensures n == |DbPictures.GetImages(st)|
  {
    |st.images|
  }

  /** Creating an image adds one to the total. */
  lemma TotalAfterCreate(st: Store, uploadedBy: int, name: string, createdAt: int)
    ensures GetTotalPictures(DbPictures.CreateImage(st, uploadedBy, name, createdAt)) == GetTotalPictures(st) + 1
  {
  }
}

=== FILE: db_users.dfy ===
/**
 * The SQLite tables of pkg/db as in-memory relations, and the user and
 * registration-key operations of pkg/db/users.go. Rows are kept in rowid
 * order, the order a table scan without ORDER BY returns them in; an
 * `INTEGER PRIMARY KEY` insert takes one more than the largest id present,
 * or 1 in an empty table. Connection and driver failures are not part of
 * these functions: the handlers that call them decide, through their fault
 * parameters, whether a call fails.
 */
module Db {
  import opened Wrappers

  datatype User = User(id: int, username: string, password: string)

  datatype Image = Image(id: int, uploadedBy: int, name: string, createdAt: int)

  datatype Store = Store(users: seq<User>, keys: seq<string>, images: seq<Image>)

  /** `sql.ErrNoRows`. */
  datatype DbError = NoRows

  /** The id SQLite gives the next row of a table holding these ids. */
  function NextRowId(ids: seq<int>): (r: int)
    ensures forall i :: 0 <= i < |ids| ==> ids[i] < r
    ensures |ids| == 0 ==> r == 1
    ensures |ids| > 0 ==> exists i :: 0 <= i < |ids| && ids[i] == r - 1
  {
    if |ids| == 0 then 1
    else
      var rest := NextRowId(ids[1..]);
      assert forall i :: 1 <= i < |ids| ==> ids[i] == ids[1..][i - 1];
      if |ids| == 1 || ids[0] >= rest then ids[0] + 1 else rest
  }

  /** The id column of a table: each row's id, in table order. */
  function Ids<T>(rows: seq<T>, id: T -> int): (ids: seq<int>)
    ensures |ids| == |rows| && forall i :: 0 <= i < |rows| ==> ids[i] == id(rows[i])
  {
    seq(|rows|, i requires 0 <= i < |rows| => id(rows[i]))
  }

  function UserIds(users: seq<User>): seq<int> {
    Ids(users, (u: User) => u.id)
  }

  function ImageIds(images: seq<Image>): seq<int> {
    Ids(images, (img: Image) => img.id)
  }

  /** Index of the first user row whose username is exactly name. */
  function FirstUserNamed(users: seq<User>, name: string): (r: Option<nat>)
    ensures r.Some? ==> r.value < |users| && users[r.value].username == name
    ensures r.Some? ==> forall j :: 0 <= j < r.value ==> users[j].username != name
    ensures r.None? ==> forall j :: 0 <= j < |users| ==> users[j].username != name
  {
    if |users| == 0 then None
    else if users[0].username == name then Some(0)
    else
      match FirstUserNamed(users[1..], name)
      case None => None
      case Some(k) => Some(k + 1)
  }

  /** `GetUser`: `SELECT ... WHERE username = ?`, a case-sensitive match; the first row wins. */
  function GetUser(st: Store, username: string): (r: Result<User, DbError>)
    ensures r.Success? <==> exists j :: 0 <= j < |st.users| && st.users[j].username == username
    ensures r.Success? ==> r.value in st.users && r.value.username == username
    ensures r.Failure? ==> r.error == NoRows
  {
    match FirstUserNamed(st.users, username)
    case None => Failure(NoRows)
    case Some(j) => Success(st.users[j])
  }

  /** `CreateUser`: insert a row, then read it back with `GetUser`. */
  function CreateUser(st: Store, username: string, password: string): (r: (Store, Result<User, DbError>))
    ensures var id := NextRowId(UserIds(st.users));
      r.0 == st.(users := st.users + [User(id, username, password)])
    ensures r.1.Success? && r.1.value.username == username
    ensures GetUser(st, username).Failure? ==> r.1 == Success(User(NextRowId(UserIds(st.users)), username, password))
    ensures GetUser(st, username).Success? ==> r.1 == GetUser(st, username)
    ensures r.1 == GetUser(r.0, username)
  {
    var st' := st.(users := st.users + [User(NextRowId(UserIds(st.users)), username, password)]);
    assert st'.users[|st.users|].username == username;
    match FirstUserNamed(st.users, username)
    case None =>
      assert FirstUserNamed(st'.users, username) == Some(|st.users|);
      (st', GetUser(st', username))
    case Some(j) =>
      assert FirstUserNamed(st'.users, username) == Some(j) by {
        assert st'.users[j] == st.users[j];
        assert forall k :: 0 <= k < j ==> st'.users[k] == st.users[k];
        FirstUserNamedUnique(st'.users, username, j);
      }
      (st', GetUser(st', username))
  }

  /** The first-match index is determined by the match and the misses before it. */
  lemma FirstUserNamedUnique(users: seq<User>, name: string, j: nat)
    requires j < |users| && users[j].username == name
    requires forall k :: 0 <= k < j ==> users[k].username != name
    ensures FirstUserNamed(users, name) == Some(j)
  {
  }

  /** `ContainsKey`: `SELECT COUNT(*) ... WHERE key = ?` is positive. */
  function ContainsKey(st: Store, key: string): (r: bool)
    ensures r <==> multiset(st.keys)[key] > 0
  {
    key in st.keys
  }

  /** `CreateKey` and `AddKey`: insert one row, duplicates included. */
  function InsertKey(st: Store, key: string): (r: Store)
    ensures multiset(r.keys) == multiset(st.keys) + multiset{key}
    ensures r.users == st.users && r.images == st.images
  {
    st.(keys := st.keys + [key])
  }

  /** The key rows other than key, in order. */
  function KeysWithout(keys: seq<string>, key: string): (r: seq<string>)
    ensures key !in r
    ensures forall k :: k != key ==> multiset(r)[k] == multiset(keys)[k]
    ensures |r| <= |keys|
  {
    if |keys| == 0 then []
    else
      var rest := KeysWithout(keys[1..], key);
      assert keys == [keys[0]] + keys[1..];
      if keys[0] == key then rest else [keys[0]] + rest
  }

  /** `DeleteKey`: `DELETE FROM keys WHERE key = ?` removes every matching row. */
  function DeleteKey(st: Store, key: string): (r: Store)
    ensures !ContainsKey(r, key)
    ensures forall k :: k != key ==> multiset(r.keys)[k] == multiset(st.keys)[k]
    ensures r.users == st.users && r.images == st.images
  {
    st.(keys := KeysWithout(st.keys, key))
  }

  /** `GetKeys`: every key row, in table order. */
  function GetKeys(st: Store): (r: seq<string>)
    ensures multiset(r) == multiset(st.keys)
  {
    st.keys
  }

  /** After inserting a key it is present; deleting it afterwards leaves no copy. */
  lemma InsertThenDeleteKey(st: Store, key: string)
    ensures ContainsKey(InsertKey(st, key), key)
    ensures !ContainsKey(DeleteKey(InsertKey(st, key), key), key)
    ensures DeleteKey(InsertKey(st, key), key) == DeleteKey(st, key)
  {
    KeysWithoutAppend(st.keys, key, key);
  }

  lemma {:induction false} KeysWithoutAppend(keys: seq<string>, extra: string, key: string)
    ensures KeysWithout(keys + [extra], key) == KeysWithout(keys, key) + KeysWithout([extra], key)
  {
    if |keys| > 0 {
      assert (keys + [extra])[1..] == keys[1..] + [extra];
      KeysWithoutAppend(keys[1..], extra, key);
    } else {
      assert keys + [extra] == [extra];
    }
  }

  /** A user created under a name that was free is what `GetUser` then finds. */
  lemma CreateThenGetUser(st: Store, username: string, password: string)
    requires GetUser(st, username).Failure?
    ensures var (st', u) := CreateUser(st, username, password);
      GetUser(st', username) == u && u.value.password == password && u.value.username == username
  {
  }
}

=== FILE: decimal.dfy ===
/**
 * Decimal integers as text: Go's `%d` formatting, the `%d` verb of
 * `fmt.Sscanf`, and `strconv.Atoi` on a 64-bit platform.
 */
module Decimal {
  import opened Wrappers

  const Int64Max: int := 0x7FFF_FFFF_FFFF_FFFF

  predicate IsDigit(c: char) { '0' <= c <= '9' }

  predicate AllDigits(s: string) {
    forall i :: 0 <= i < |s| ==> IsDigit(s[i])
  }

  function DigitChar(d: nat): (c: char)
    requires d < 10
    ensures IsDigit(c)
  {
    ('0' as int + d) as char
  }

  function DigitValue(c: char): (d: nat)
    requires IsDigit(c)
    ensures d < 10 && DigitChar(d) == c
  {
    c as int - '0' as int
  }

  /** `fmt.Sprintf("%d", n)` for a non-negative n. */
  function Format(n: nat): (s: string)
    ensures |s| >= 1 && AllDigits(s)
    ensures s[0] == '0' ==> n == 0
  {
    if n < 10 then [DigitChar(n)] else Format(n / 10) + [DigitChar(n % 10)]
  }

  /** The number a string of digits denotes. */
  function Value(s: string): nat
    requires AllDigits(s)
  {
    if |s| == 0 then 0 else Value(s[..|s| - 1]) * 10 + DigitValue(s[|s| - 1])
  }

  lemma {:induction false} ValueOfFormat(n: nat)
    ensures Value(Format(n)) == n
  {
    if n >= 10 {
      ValueOfFormat(n / 10);
      var s := Format(n);
      assert s[..|s| - 1] == Format(n / 10);
    }
  }

  /** Length of the run of digits at the start of s. */
  function DigitRun(s: string): (k: nat)
    ensures k <= |s| && AllDigits(s[..k])
    ensures k < |s| ==> !IsDigit(s[k])
  {
    if |s| == 0 || !IsDigit(s[0]) then 0
    else
      var k := 1 + DigitRun(s[1..]);
      assert forall i :: 1 <= i < k ==> s[..k][i] == s[1..][..k - 1][i - 1];
      k
  }

  /**
   * The `%d` verb scanning into an unsigned Go integer whose values lie below
   * bound (2^32 for uint32, 2^8 for uint8): one or more digits, as many as
   * there are, and an overflow error when the value does not fit. Returns the
   * value and the unread input.
   */
  function ScanUnsigned(s: string, bound: nat): (r: Option<(nat, string)>)
    ensures r.Some? ==> r.value.0 < bound
    ensures r.Some? ==> exists k :: 1 <= k <= |s| && AllDigits(s[..k]) && r.value.1 == s[k..]
  {
    var k := DigitRun(s);
    if k == 0 then None
    else
      var v := Value(s[..k]);
      if v < bound then Some((v, s[k..])) else None
  }

  /** The `%d` verb scanning into a signed 64-bit Go int: an optional sign, then digits. */
  function ScanInt64(s: string): (r: Option<(int, string)>)
    ensures r.Some? ==> -Int64Max - 1 <= r.value.0 <= Int64Max
  {
    if |s| > 0 && (s[0] == '+' || s[0] == '-') then
      var k := DigitRun(s[1..]);
      if k == 0 then None
      else
        var v := Value(s[1..][..k]);
        var n: int := if s[0] == '-' then -(v as int) else v;
        if -Int64Max - 1 <= n <= Int64Max then Some((n, s[1..][k..])) else None
    else
      var k := DigitRun(s);
      if k == 0 then None
      else
        var v := Value(s[..k]);
        if v <= Int64Max then Some((v as int, s[k..])) else None
  }

  /** Scanning what `%d` printed, followed by a non-digit or nothing, gives the number back. */
  lemma ScanFormat(n: nat, rest: string, bound: nat)
    requires n < bound
    requires |rest| == 0 || !IsDigit(rest[0])
    ensures ScanUnsigned(Format(n) + rest, bound) == Some((n, rest))
  {
    var f := Format(n);
    var s := f + rest;
    DigitRunOfDigits(f, rest);
    assert s[..|f|] == f;
    ValueOfFormat(n);
  }

  lemma ScanInt64Format(n: nat, rest: string)
    requires n <= Int64Max
    requires |rest| == 0 || !IsDigit(rest[0])
    ensures ScanInt64(Format(n) + rest) == Some((n as int, rest))
  {
    var f := Format(n);
    var s := f + rest;
    assert s[0] == f[0];
    DigitRunOfDigits(f, rest);
    assert s[..|f|] == f;
    ValueOfFormat(n);
  }

  lemma {:induction false} DigitRunOfDigits(ds: string, rest: string)
    requires AllDigits(ds)
    requires |rest| == 0 || !IsDigit(rest[0])
    ensures DigitRun(ds + rest) == |ds|
  {
    if |ds| > 0 {
      assert (ds + rest)[1..] == ds[1..] + rest;
      DigitRunOfDigits(ds[1..], rest);
    } else {
      assert ds + rest == rest;
    }
  }

  /**
   * `strconv.Atoi` with Go's 64-bit int: an optional sign followed by at least
   * one digit and nothing else, in range.
   */
  function Atoi(s: string): (r: Option<int>)
    ensures r.Some? ==> -Int64Max - 1 <= r.value <= Int64Max
    ensures r.Some? ==> |s| >= 1
  {
    var signed := |s| > 0 && (s[0] == '+' || s[0] == '-');
    var digits := if signed then s[1..] else s;
    if |digits| == 0 || !AllDigits(digits) then None
    else
      var v := Value(digits);
      var n: int := if signed && s[0] == '-' then -(v as int) else v;
      if -Int64Max - 1 <= n <= Int64Max then Some(n) else None
  }

  lemma AtoiFormat(n: nat)
    requires n <= Int64Max
    ensures Atoi(Format(n)) == Some(n)
    ensures n > 0 ==> Atoi("-" + Format(n)) == Some(-(n as int))
  {
    ValueOfFormat(n);
    var f := Format(n);
    assert ("-" + f)[1..] == f;
  }

  /** Atoi accepts only text that contains a digit. */
  lemma AtoiNeedsDigit(s: string)
    requires forall i :: 0 <= i < |s| ==> !IsDigit(s[i])
    ensures Atoi(s) == None
  {
    if |s| > 0 && (s[0] == '+' || s[0] == '-') && |s| > 1 {
      assert !IsDigit(s[1..][0]);
    }
  }
}

=== FILE: filepath.dfy ===
/**
 * The lexical part of Go's `path/filepath` on a slash-separated system:
 * `Clean`, `Join` and `Ext`. No file system is consulted.
 */
module FilePath {
  import opened Wrappers
  import opened Text

  /** A path element that `Clean` keeps as it is. */
  predicate Plain(elem: string) {
    elem != "" && elem != "." && elem != ".." && '/' !in elem
  }

  /**
   * What `Clean` may leave behind: no empty or "." elements, ".." only as a
   * leading run, and none at all in a rooted path.
   */
  predicate CleanStack(stack: seq<string>, rooted: bool) {
    && (forall i :: 0 <= i < |stack| ==> stack[i] != "" && stack[i] != "." && '/' !in stack[i])
    && (forall i, j :: 0 <= i < j < |stack| && stack[j] == ".." ==> stack[i] == "..")
    && (rooted ==> forall i :: 0 <= i < |stack| ==> stack[i] != "..")
  }

  /** One element: drop "" and ".", let ".." cancel a preceding name, keep anything else. */
  function Step(stack: seq<string>, elem: string, rooted: bool): seq<string> {
    if elem == "" || elem == "." then stack
    else if elem == ".." then
      if |stack| > 0 && stack[|stack| - 1] != ".." then stack[..|stack| - 1]
      else if rooted then stack
      else stack + [".."]
    else stack + [elem]
  }

  function Fold(stack: seq<string>, elems: seq<string>, rooted: bool): (r: seq<string>)
    requires CleanStack(stack, rooted)
    requires forall i :: 0 <= i < |elems| ==> '/' !in elems[i]
    ensures CleanStack(r, rooted)
    decreases |elems|
  {
    if |elems| == 0 then stack
    else
      var next := Step(stack, elems[0], rooted);
      assert CleanStack(next, rooted) by {
        if elems[0] == ".." && !(|stack| > 0 && stack[|stack| - 1] != "..") && !rooted {
          assert forall i :: 0 <= i < |stack| ==> stack[i] == ".." by {
            forall i | 0 <= i < |stack| ensures stack[i] == ".." {
              if i < |stack| - 1 { assert stack[|stack| - 1] == ".."; }
            }
          }
        }
      }
      Fold(next, elems[1..], rooted)
  }

  /**
   * `filepath.Clean`: the shortest lexically equivalent path. A rooted path
   * keeps its "/", and an empty result is ".".
   */
  function Clean(path: string): (r: string)
    ensures r != ""
    ensures (|path| > 0 && path[0] == '/') <==> r[0] == '/'
    ensures var stack := Fold([], Split(path, '/'), |path| > 0 && path[0] == '/');
      CleanStack(stack, |path| > 0 && path[0] == '/') && (r == "." || r == JoinWith(stack, '/') || r == "/" + JoinWith(stack, '/'))
  {
    var rooted := |path| > 0 && path[0] == '/';
    var body := JoinWith(Fold([], Split(path, '/'), rooted), '/');
    if rooted then "/" + body
    else if body == "" then "."
    else
      JoinWithHead(Fold([], Split(path, '/'), rooted), '/');
      body
  }

  /** A non-empty join of elements starts with the first element's first character. */
  lemma {:induction false} JoinWithHead(parts: seq<string>, sep: char)
    requires JoinWith(parts, sep) != ""
    requires forall i :: 0 <= i < |parts| ==> parts[i] != "" && sep !in parts[i]
    ensures JoinWith(parts, sep)[0] == parts[0][0] && JoinWith(parts, sep)[0] != sep
  {
  }

  /** `filepath.Join`: the non-empty tail from the first non-empty element, joined by "/" and cleaned. */
  function Join(elems: seq<string>): (r: string)
    ensures r == "" <==> forall i :: 0 <= i < |elems| ==> elems[i] == ""
  {
    if |elems| == 0 then ""
    else if elems[0] == "" then Join(elems[1..])
    else Clean(JoinWith(elems, '/'))
  }

  /** Plain elements are kept one for one. */
  lemma {:induction false} FoldPlain(stack: seq<string>, elems: seq<string>, rooted: bool)
    requires CleanStack(stack, rooted)
    requires forall i :: 0 <= i < |elems| ==> Plain(elems[i]) && '/' !in elems[i]
    ensures Fold(stack, elems, rooted) == stack + elems
    decreases |elems|
  {
    if |elems| > 0 {
      var next := stack + [elems[0]];
      assert Step(stack, elems[0], rooted) == next;
      assert CleanStack(next, rooted) by {
        assert forall i :: 0 <= i < |stack| ==> next[i] == stack[i];
        assert next[|stack|] != "..";
      }
      assert Fold(stack, elems, rooted) == Fold(next, elems[1..], rooted);
      FoldPlain(next, elems[1..], rooted);
      assert stack + [elems[0]] + elems[1..] == stack + elems;
    }
  }

  /** `Clean` leaves a relative path made of plain elements unchanged. */
  lemma CleanOfPlain(parts: seq<string>)
    requires |parts| >= 1
    requires forall i :: 0 <= i < |parts| ==> Plain(parts[i])
    ensures Clean(JoinWith(parts, '/')) == JoinWith(parts, '/')
  {
    var path := JoinWith(parts, '/');
    SplitJoin(parts, '/');
    FoldPlain([], parts, false);
    assert [] + parts == parts;
    JoinWithNonEmpty(parts, '/');
    JoinWithHead(parts, '/');
  }

  lemma {:induction false} JoinWithNonEmpty(parts: seq<string>, sep: char)
    requires |parts| >= 1 && parts[0] != ""
    ensures JoinWith(parts, sep) != ""
  {
  }

  /** Joining a plain file name under a plain directory name only inserts the separator. */
  lemma JoinPlain(dir: string, name: string)
    requires Plain(dir) && Plain(name)
    ensures Join([dir, name]) == dir + "/" + name
    ensures HasPrefix(Join([dir, name]), dir)
  {
    assert JoinWith([dir, name], '/') == dir + ['/'] + name by {
      assert [dir, name][1..] == [name];
    }
    CleanOfPlain([dir, name]);
  }

  /** The elements of dir/../sibling/file. */
  lemma SplitParentPath(dir: string, sibling: string, file: string)
    requires Plain(dir) && Plain(sibling) && Plain(file)
    ensures Split(dir + ['/'] + (".." + ['/'] + (sibling + ['/'] + file)), '/') == [dir, "..", sibling, file]
  {
    SplitNoSeparator(file, '/');
    SplitAppend(sibling, '/', file);
    SplitAppend("..", '/', sibling + ['/'] + file);
    SplitAppend(dir, '/', ".." + ['/'] + (sibling + ['/'] + file));
  }

  /** Folding dir, "..", sibling, file cancels dir. */
  lemma FoldParent(dir: string, sibling: string, file: string)
    requires Plain(dir) && Plain(sibling) && Plain(file)
    ensures Fold([], [dir, "..", sibling, file], false) == [sibling, file]
  {
    var elems := [dir, "..", sibling, file];
    assert Step([], dir, false) == [dir];
    assert Fold([], elems, false) == Fold([dir], elems[1..], false);
    assert Fold([dir], elems[1..], false) == Fold([], elems[2..], false);
    assert Step([], sibling, false) == [sibling];
    assert Fold([], elems[2..], false) == Fold([sibling], elems[3..], false);
    assert Fold([sibling], elems[3..], false) == Fold([sibling, file], [], false);
  }

  /** A name that climbs out of dir with ".." resolves next to dir, not under it. */
  lemma JoinParent(dir: string, sibling: string, file: string)
    requires Plain(dir) && Plain(sibling) && Plain(file)
    ensures Join([dir, "../" + sibling + "/" + file]) == sibling + "/" + file
  {
    var name := "../" + sibling + "/" + file;
    var path := dir + ['/'] + (".." + ['/'] + (sibling + ['/'] + file));
    assert JoinWith([dir, name], '/') == path by {
      assert [dir, name][1..] == [name];
    }
    SplitParentPath(dir, sibling, file);
    FoldParent(dir, sibling, file);
    assert path[0] != '/';
    assert JoinWith([sibling, file], '/') == sibling + ['/'] + file by {
      assert [sibling, file][1..] == [file];
    }
  }

  /** Position of the last "." in path[..n] that no "/" follows, scanning back from n. */
  function DotIndex(path: string, n: nat): (r: Option<nat>)
    requires n <= |path|
    ensures r.Some? ==> r.value < n && path[r.value] == '.'
    ensures r.Some? ==> forall k :: r.value < k < n ==> path[k] != '/' && path[k] != '.'
    ensures r.None? ==> forall k :: 0 <= k < n && path[k] == '.' ==> exists m :: k < m < n && path[m] == '/'
  {
    if n == 0 then None
    else if path[n - 1] == '/' then None
    else if path[n - 1] == '.' then Some(n - 1)
    else DotIndex(path, n - 1)
  }

  /**
   * `filepath.Ext`: the suffix from the last "." of the final element, or
   * "" when that element has no dot.
   */
  function Ext(path: string): (r: string)
    ensures |r| <= |path| && r == path[|path| - |r|..]
    ensures '/' !in r
    ensures r != "" ==> r[0] == '.' && '.' !in r[1..]
    ensures r == "" ==> forall k :: 0 <= k < |path| && path[k] == '.' ==> exists m :: k < m < |path| && path[m] == '/'
  {
    match DotIndex(path, |path|)
    case None => ""
    case Some(i) =>
      assert forall k :: 0 <= k < |path| - i ==> path[i..][k] == path[i + k];
      path[i..]
  }
}

=== FILE: jwt.dfy ===
/**
 * The slice of JSON Web Tokens (RFC 7519) that the server uses, as the
 * `dgrijalva/jwt-go` v3 library presents it: a token is a header `alg`, a map
 * of claims and a signature. The compact serialisation and the HMAC function
 * (section 3.2 of RFC 7518) are parameters of the model, bundled in a `Codec`.
 */
module Jwt {
  import opened Wrappers
  import Base64

  type Key = seq<Base64.byte>

  /** A decoded JSON claim value; JSON numbers are modelled as integers. */
  datatype Claim = Number(n: int) | Text(s: string) | Boolean(b: bool) | Null | Structured

  type Claims = map<string, Claim>

  datatype SigningMethod = HS256 | HS384 | HS512 | Asymmetric(name: string) | Unsecured

  datatype Token = Token(alg: string, claims: Claims, signature: seq<Base64.byte>)

  /**
   * The library's foreign parts: compact serialisation, its parser (None for
   * text that is not three well-formed segments), and the MAC of the signing
   * input under the algorithm named by the header.
   */
  datatype Codec = Codec(
    serialize: Token -> string,
    deserialize: string -> Option<Token>,
    mac: (string, Claims, Key) -> seq<Base64.byte>)

  /**
   * Parsing what the library serialised recovers the token, and a serialised
   * token is never empty (the compact form always has its two dots).
   */
  ghost predicate Sound(codec: Codec) {
    forall t :: codec.deserialize(codec.serialize(t)) == Some(t) && |codec.serialize(t)| > 0
  }

  /** `jwt.GetSigningMethod`: the algorithms jwt-go v3 registers. */
  function MethodByName(alg: string): (m: Option<SigningMethod>)
    ensures alg == "HS256" ==> m == Some(HS256)
  {
    if alg == "HS256" then Some(HS256)
    else if alg == "HS384" then Some(HS384)
    else if alg == "HS512" then Some(HS512)
    else if alg in {"RS256", "RS384", "RS512", "ES256", "ES384", "ES512", "PS256", "PS384", "PS512"} then Some(Asymmetric(alg))
    else if alg == "none" then Some(Unsecured)
    else None
  }

  predicate IsHmac(m: SigningMethod) {
    m.HS256? || m.HS384? || m.HS512?
  }

  /** `jwt.New(jwt.SigningMethodHS256)` with the given claims, then `SignedString(key)`. */
  function SignHS256(codec: Codec, claims: Claims, key: Key): string {
    codec.serialize(Token("HS256", claims, codec.mac("HS256", claims, key)))
  }

  /** A numeric registered claim as `MapClaims` reads it: absent or non-numeric counts as 0. */
  function NumericClaim(claims: Claims, name: string): int {
    if name in claims && claims[name].Number? then claims[name].n else 0
  }

  /** `MapClaims.Valid()`: exp, iat and nbf are checked only when present and non-zero. */
  predicate ClaimsValid(claims: Claims, now: int) {
    var exp, iat, nbf := NumericClaim(claims, "exp"), NumericClaim(claims, "iat"), NumericClaim(claims, "nbf");
    (exp == 0 || now <= exp) && (iat == 0 || now >= iat) && (nbf == 0 || now >= nbf)
  }

  datatype ParseError = Malformed | Unverifiable | SignatureInvalid | ClaimsInvalid

  /** What `jwt.Parse` returns: the token's claims, `token.Valid`, and the error. */
  datatype Parsed = Parsed(claims: Claims, valid: bool, err: Option<ParseError>)

  /**
   * `jwt.Parse(text, keyFunc)`: keyFunc is the caller's callback, None standing
   * for the callback returning an error. An HMAC method verifies the
   * signature with the key the callback gives; any other method cannot verify
   * with a byte-string key.
   */
  function Parse(codec: Codec, text: string, keyFunc: SigningMethod -> Option<Key>, now: int): (r: Parsed)
    ensures r.valid <==> r.err.None?
    ensures r.valid <==>
      (codec.deserialize(text).Some?
       && var t := codec.deserialize(text).value;
          MethodByName(t.alg).Some? && keyFunc(MethodByName(t.alg).value).Some?
          && IsHmac(MethodByName(t.alg).value)
          && t.signature == codec.mac(t.alg, t.claims, keyFunc(MethodByName(t.alg).value).value)
          && ClaimsValid(t.claims, now))
    ensures r.valid ==> r.claims == codec.deserialize(text).value.claims
  {
    match codec.deserialize(text)
    case None => Parsed(map[], false, Some(Malformed))
    case Some(t) =>
      match MethodByName(t.alg)
      case None => Parsed(t.claims, false, Some(Unverifiable))
      case Some(m) =>
        match keyFunc(m)
        case None => Parsed(t.claims, false, Some(Unverifiable))
        case Some(key) =>
          if !IsHmac(m) || t.signature != codec.mac(t.alg, t.claims, key) then
            Parsed(t.claims, false, Some(SignatureInvalid))
          else if !ClaimsValid(t.claims, now) then
            Parsed(t.claims, false, Some(ClaimsInvalid))
          else
            Parsed(t.claims, true, None)
  }

  /** A token this library signed with key k parses as valid under a callback that returns k. */
  lemma ParseSigned(codec: Codec, claims: Claims, key: Key, keyFunc: SigningMethod -> Option<Key>, now: int)
    requires Sound(codec)
    requires keyFunc(HS256) == Some(key)
    requires ClaimsValid(claims, now)
    ensures Parse(codec, SignHS256(codec, claims, key), keyFunc, now) == Parsed(claims, true, None)
  {
    var t := Token("HS256", claims, codec.mac("HS256", claims, key));
    assert codec.deserialize(codec.serialize(t)) == Some(t);
  }

  /** Claims without exp, iat or nbf are valid at every time. */
  lemma NoTimeClaimsValid(claims: Claims, now: int)
    requires "exp" !in claims && "iat" !in claims && "nbf" !in claims
    ensures ClaimsValid(claims, now)
  {
  }
}

=== FILE: pictures_handlers.dfy ===
/**
 * The picture routes of internal/pictures/handlers.go, behind
 * `AuthMiddleware`: listing a page of image rows, serving one picture file
 * on the permitted dates, counting rows, and multi-file upload. The date,
 * the file system's `os.Stat` answer, the save and insert failures, and the
 * clock are parameters.
 */
module PictureHandlers {
  import opened Wrappers
  import opened Text
  import opened Db
  import DbPictures
  import DbSqlite
  import FilePath
  import opened PictureHelpers

  /**
   * The three date constants `GetPicture` compares against; they are defined
   * outside the handler file, so they are parameters here.
   */
  datatype Calendar = Calendar(anniversaryDay: int, valentineDay: int, valentineMonth: int)

  datatype PicturesService = PicturesService(basePath: string, sha256: string -> Digest, calendar: Calendar)

  datatype Body =
    | Images(images: seq<Image>)
    | Total(total: nat)
    | ErrorBody(error: string)
    | Uploaded(message: string, paths: seq<string>)
    | SomeFailed(error: string, failedFiles: seq<string>)

  /** A `c.JSON` reply, or `c.File` serving the file at path. */
  datatype Reply = Json(status: int, body: Body) | SendFile(path: string)

  /**
   * The date gate of `GetPicture` as written: access is refused when the
   * day is not the anniversary day and the month is neither `valentineDay`
   * nor `valentineMonth`. The month is compared with a day constant.
   */
  predicate DateAllowed(cal: Calendar, day: int, month: int) {
    !(day != cal.anniversaryDay && (month != cal.valentineDay && month != cal.valentineMonth))
  }

  /** The anniversary day opens the gate in every month. */
  lemma AnniversaryAlwaysOpen(cal: Calendar, month: int)
    ensures DateAllowed(cal, cal.anniversaryDay, month)
  {
  }

  /**
   * Because the month is compared rather than the day, every day of the
   * valentine month is open, not only the valentine day; outside the
   * anniversary day no other month is open unless its number equals the
   * valentine day.
   */
  lemma WholeValentineMonthOpen(cal: Calendar, day: int, month: int)
    ensures DateAllowed(cal, day, cal.valentineMonth)
    ensures day != cal.anniversaryDay && month != cal.valentineMonth && month != cal.valentineDay ==> !DateAllowed(cal, day, month)
  {
  }

  /** With February 14 as the valentine date, February 1 is open although it is neither date. */
  lemma FebruaryFirstOpen(anniversaryDay: int)
    requires anniversaryDay != 1
    ensures DateAllowed(Calendar(anniversaryDay, 14, 2), 1, 2)
    ensures !DateAllowed(Calendar(anniversaryDay, 14, 2), 1, 3)
  {
  }

  /** The outcome of `os.Stat`: found, `os.IsNotExist`, or another error. */
  datatype StatResult = Found | NotExist | StatFailed

  /**
   * `GetPicture`: the date gate first, then the string-prefix test on the
   * cleaned join of base path and `name`, then `os.Stat`. Only a not-exist
   * error gives 404: another stat error still serves the path.
   */
  function GetPicture(svc: PicturesService, day: int, month: int, name: string, stat: string -> StatResult): (r: Reply)
    ensures !DateAllowed(svc.calendar, day, month) ==> r == Json(403, ErrorBody("access denied"))
    ensures DateAllowed(svc.calendar, day, month) ==>
      (r == Json(400, ErrorBody("invalid file path")) <==> !HasPrefix(FilePath.Join([svc.basePath, name]), svc.basePath))
    ensures r == Json(404, ErrorBody("picture not found")) <==>
      DateAllowed(svc.calendar, day, month) && HasPrefix(FilePath.Join([svc.basePath, name]), svc.basePath)
      && stat(FilePath.Join([svc.basePath, name])) == NotExist
    ensures r.SendFile? ==>
      DateAllowed(svc.calendar, day, month) && r.path == FilePath.Join([svc.basePath, name])
      && HasPrefix(r.path, svc.basePath) && stat(r.path) != NotExist
    ensures DateAllowed(svc.calendar, day, month) && HasPrefix(FilePath.Join([svc.basePath, name]), svc.basePath)
      && stat(FilePath.Join([svc.basePath, name])) != NotExist
      ==> r == SendFile(FilePath.Join([svc.basePath, name]))
  {
    if !DateAllowed(svc.calendar, day, month) then Json(403, ErrorBody("access denied"))
    else
      var filePath := FilePath.Join([svc.basePath, name]);
      if !HasPrefix(filePath, svc.basePath) then Json(400, ErrorBody("invalid file path"))
      else if stat(filePath) == NotExist then Json(404, ErrorBody("picture not found"))
      else SendFile(filePath)
  }

  /** A plain file name under a plain base directory is never refused as a path. */
  lemma PlainNameServed(svc: PicturesService, day: int, month: int, name: string, stat: string -> StatResult)
    requires FilePath.Plain(svc.basePath) && FilePath.Plain(name)
    requires DateAllowed(svc.calendar, day, month)
    requires stat(svc.basePath + "/" + name) != NotExist
    ensures GetPicture(svc, day, month, name, stat) == SendFile(svc.basePath + "/" + name)
  {
    FilePath.JoinPlain(svc.basePath, name);
  }

  /**
   * The prefix test is on text, not on path elements: "../images2/x" under
   * "images" resolves to the sibling directory "images2" and passes.
   */
  lemma SiblingDirectoryPasses(svc: PicturesService, day: int, month: int, stat: string -> StatResult)
    requires svc.basePath == "images"
    requires DateAllowed(svc.calendar, day, month)
    ensures GetPicture(svc, day, month, "../images2/x", stat) != Json(400, ErrorBody("invalid file path"))
    ensures stat("images2/x") == Found ==> GetPicture(svc, day, month, "../images2/x", stat) == SendFile("images2/x")
  {
    assert FilePath.Plain("images") && FilePath.Plain("images2") && FilePath.Plain("x");
    FilePath.JoinParent("images", "images2", "x");
    assert "../" + "images2" == "../images2";
    assert "../images2" + "/" == "../images2/";
    assert "../images2/" + "x" == "../images2/x";
    assert "images2" + "/" + "x" == "images2/x";
    assert HasPrefix("images2/x", "images");
  }

  /** Climbing out of "images" into an unrelated directory is refused. */
  lemma TraversalRefused(svc: PicturesService, day: int, month: int, stat: string -> StatResult)
    requires svc.basePath == "images"
    requires DateAllowed(svc.calendar, day, month)
    ensures GetPicture(svc, day, month, "../etc/passwd", stat) == Json(400, ErrorBody("invalid file path"))
  {
    assert FilePath.Plain("images") && FilePath.Plain("etc") && FilePath.Plain("passwd");
    FilePath.JoinParent("images", "etc", "passwd");
    assert "../" + "etc" == "../etc";
    assert "../etc" + "/" == "../etc/";
    assert "../etc/" + "passwd" == "../etc/passwd";
    assert "etc" + "/" + "passwd" == "etc/passwd";
    assert !HasPrefix("etc/passwd", "images") by { assert "etc/passwd"[0] != "images"[0]; }
  }

  /** `GetPictures`: one page of image rows; `queryFails` is a database error. */
  function GetPictures(st: Store, limitQuery: Option<string>, offsetQuery: Option<string>, queryFails: bool): (r: Reply)
    ensures queryFails ==> r == Json(500, ErrorBody("failed to get pictures"))
    ensures !queryFails ==> r.Json? && r.status == 200 && r.body.Images?
    ensures !queryFails ==>
      var p := ParsePagination(limitQuery, offsetQuery);
      && |r.body.images| <= p.limit <= MaxLimit
      && |r.body.images| == (if p.offset >= |st.images| then 0 else DbPictures.Min(p.limit, |st.images| - p.offset))
      && (p.offset < |st.images| ==> r.body.images == st.images[p.offset..p.offset + |r.body.images|])
  {
    if queryFails then Json(500, ErrorBody("failed to get pictures"))
    else
      var p := ParsePagination(limitQuery, offsetQuery);
      Json(200, Images(DbPictures.GetImagesPaginated(st, p.limit, p.offset)))
  }

  /** `GetTotalPictures`: the row count, or 500 on a database error. */
  function GetTotalPictures(st: Store, queryFails: bool): (r: Reply)
    ensures queryFails ==> r == Json(500, ErrorBody("failed to get total images"))
    ensures !queryFails ==> r == Json(200, Total(|st.images|))
  {
    if queryFails then Json(500, ErrorBody("failed to get total images"))
    else Json(200, Total(DbSqlite.GetTotalPictures(st)))
  }

  /** The outcome of `validateAndSaveFile` for the i-th file of the form. */
  function Attempt(svc: PicturesService, file: FileHeader, i: nat, stamp: nat -> string, saveFails: nat -> bool)
    : Result<string, UploadError>
  {
    ValidateAndSave(file, stamp(i), svc.sha256, saveFails(i))
  }

  /** The saved names of the successful attempts, in input order. */
  function Successes(results: seq<Result<string, UploadError>>): (r: seq<string>)
    ensures |r| <= |results|
    decreases |results|
  {
    if |results| == 0 then []
    else
      var last := results[|results| - 1];
      Successes(results[..|results| - 1]) + (if last.Success? then [last.value] else [])
  }

  /** The client file names of the failed attempts, in input order. */
  function Failures(files: seq<FileHeader>, results: seq<Result<string, UploadError>>): (r: seq<string>)
    requires |files| == |results|
    ensures |r| <= |results|
    decreases |results|
  {
    if |results| == 0 then []
    else
      var n := |results| - 1;
      Failures(files[..n], results[..n]) + (if results[n].Failure? then [files[n].filename] else [])
  }

  /** Every file lands in exactly one of the two lists. */
  lemma {:induction false} PartitionSizes(files: seq<FileHeader>, results: seq<Result<string, UploadError>>)
    requires |files| == |results|
    ensures |Successes(results)| + |Failures(files, results)| == |files|
    ensures |Successes(results)| == 0 <==> forall i :: 0 <= i < |results| ==> results[i].Failure?
    decreases |results|
  {
    if |results| > 0 {
      var n := |results| - 1;
      PartitionSizes(files[..n], results[..n]);
      assert forall i :: 0 <= i < n ==> results[..n][i] == results[i];
    }
  }

  /** Extending the prefix by one attempt extends exactly one of the two lists. */
  lemma PartitionStep(files: seq<FileHeader>, results: seq<Result<string, UploadError>>, i: nat)
    requires |files| == |results| && i < |results|
    ensures Successes(results[..i + 1]) == Successes(results[..i]) + (if results[i].Success? then [results[i].value] else [])
    ensures Failures(files[..i + 1], results[..i + 1])
      == Failures(files[..i], results[..i]) + (if results[i].Failure? then [files[i].filename] else [])
  {
    assert results[..i + 1][..i] == results[..i];
    assert files[..i + 1][..i] == files[..i];
  }

  /** An image row the second loop inserts: the saved name and the Unix time read for it. */
  datatype NewRow = NewRow(name: string, createdAt: int)

  /**
   * The rows whose database insert succeeds, in order: the j-th name with the
   * time `clock(j)` that `time.Now().Unix()` returns in the j-th iteration.
   */
  function Recorded(names: seq<string>, insertFails: nat -> bool, clock: nat -> int): (r: seq<NewRow>)
    ensures |r| <= |names|
    decreases |names|
  {
    if |names| == 0 then []
    else
      var n := |names| - 1;
      Recorded(names[..n], insertFails, clock) + (if insertFails(n) then [] else [NewRow(names[n], clock(n))])
  }

  /** The outcomes of validating and saving each file of the form, by position. */
  function Attempts(svc: PicturesService, files: seq<FileHeader>, stamp: nat -> string, saveFails: nat -> bool)
    : (r: seq<Result<string, UploadError>>)
    ensures |r| == |files|
  {
    seq(|files|, i requires 0 <= i < |files| => Attempt(svc, files[i], i, stamp, saveFails))
  }

  /** The first loop of `UploadPictures`: validate and save each file, sorting names into two lists. */
  method SaveAll(svc: PicturesService, files: seq<FileHeader>, stamp: nat -> string, saveFails: nat -> bool)
    returns (ok: seq<string>, failed: seq<string>)
    ensures ok == Successes(Attempts(svc, files, stamp, saveFails))
    ensures failed == Failures(files, Attempts(svc, files, stamp, saveFails))
    ensures |ok| + |failed| == |files|
  {
    ghost var results := Attempts(svc, files, stamp, saveFails);
    ok, failed := [], [];
    var i := 0;
    while i < |files|
      invariant 0 <= i <= |files|
      invariant ok == Successes(results[..i])
      invariant failed == Failures(files[..i], results[..i])
    {
      var outcome := ValidateAndSave(files[i], stamp(i), svc.sha256, saveFails(i));
      assert outcome == results[i];
      PartitionStep(files, results, i);
      if outcome.Failure? {
        failed := failed + [files[i].filename];
      } else {
        ok := ok + [outcome.value];
      }
      i := i + 1;
    }
    assert results[..i] == results && files[..i] == files;
    PartitionSizes(files, results);
  }

  /** st' extends st by the given rows, in order and owned by userId; nothing else changes. */
  predicate AddsRows(st: Store, st': Store, rows: seq<NewRow>, userId: int) {
    && st'.users == st.users && st'.keys == st.keys
    && |st'.images| == |st.images| + |rows|
    && st'.images[..|st.images|] == st.images
    && forall k :: 0 <= k < |rows| ==>
         st'.images[|st.images| + k].name == rows[k].name
         && st'.images[|st.images| + k].uploadedBy == userId && st'.images[|st.images| + k].createdAt == rows[k].createdAt
  }

  /** The second loop: one `CreateImage` per saved name, a failing insert skipped. */
  method RecordAll(st: Store, names: seq<string>, userId: int, clock: nat -> int, insertFails: nat -> bool)
    returns (st': Store)
    ensures AddsRows(st, st', Recorded(names, insertFails, clock), userId)
  {
    st' := st;
    var j := 0;
    while j < |names|
      invariant 0 <= j <= |names|
      invariant AddsRows(st, st', Recorded(names[..j], insertFails, clock), userId)
    {
      assert names[..j + 1][..j] == names[..j];
      if !insertFails(j) {
        var before := st';
        st' := DbPictures.CreateImage(st', userId, names[j], clock(j));
        AddsOneMore(st, before, st', Recorded(names[..j], insertFails, clock), NewRow(names[j], clock(j)), userId);
      } else {
        assert Recorded(names[..j + 1], insertFails, clock) == Recorded(names[..j], insertFails, clock);
      }
      j := j + 1;
    }
    assert names[..j] == names;
  }

  lemma AddsOneMore(st: Store, mid: Store, st': Store, rows: seq<NewRow>, row: NewRow, userId: int)
    requires AddsRows(st, mid, rows, userId)
    requires st' == DbPictures.CreateImage(mid, userId, row.name, row.createdAt)
    ensures AddsRows(st, st', rows + [row], userId)
  {
    assert st'.images[..|mid.images|] == mid.images;
    assert st'.images[..|st.images|] == mid.images[..|st.images|];
    forall k | 0 <= k < |rows| + 1
      ensures st'.images[|st.images| + k].name == (rows + [row])[k].name
      ensures st'.images[|st.images| + k].createdAt == (rows + [row])[k].createdAt
    {
      if k < |rows| {
        assert st'.images[|st.images| + k] == mid.images[|st.images| + k];
      }
    }
  }

  /**
   * `UploadPictures`. `form` is None when the multipart form cannot be read.
   * The i-th file's save fails when `saveFails(i)`, the j-th successful
   * file's `CreateImage` fails when `insertFails(j)`, `clock(j)` is the Unix
   * time read for it, and `stamp(i)` is the time text hashed into the i-th
   * name. Both the 200 and the 400 reply are
   * written when some files succeed and others fail.
   */
  method UploadPictures(svc: PicturesService, st: Store, form: Option<seq<FileHeader>>, userId: int, clock: nat -> int,
                        stamp: nat -> string, saveFails: nat -> bool, insertFails: nat -> bool)
    returns (st': Store, replies: seq<Reply>)
    ensures form.None? || |form.value| == 0 ==> st' == st && replies == [Json(500, ErrorBody("Internal server error"))]
    ensures form.Some? && |form.value| > 0 ==>
      var ok := Successes(Attempts(svc, form.value, stamp, saveFails));
      var failed := Failures(form.value, Attempts(svc, form.value, stamp, saveFails));
      && replies == (if |ok| > 0 then [Json(200, Uploaded("Files uploaded successfully", ok))] else [])
                    + (if |failed| > 0 then [Json(400, SomeFailed("some files failed to upload", failed))] else [])
      && |ok| + |failed| == |form.value|
      && AddsRows(st, st', Recorded(ok, insertFails, clock), userId)
    ensures form.Some? && |form.value| > 0 ==> 1 <= |replies| <= 2
  {
    if form.None? || |form.value| == 0 {
      var (status, message) := UploadErrorReply(OtherError("no pictures uploaded"));
      return st, [Json(status, ErrorBody(message))];
    }
    var ok, failed := SaveAll(svc, form.value, stamp, saveFails);
    st' := RecordAll(st, ok, userId, clock, insertFails);
    replies := [];
    if |ok| > 0 {
      replies := replies + [Json(200, Uploaded("Files uploaded successfully", ok))];
    }
    if |failed| > 0 {
      replies := replies + [Json(400, SomeFailed("some files failed to upload", failed))];
    }
  }
}

=== FILE: pictures_helpers.dfy ===
/**
 * The helpers of internal/pictures/helpers.go: pagination query parsing,
 * the stored file name, the content-type gate before saving, and the
 * mapping of upload errors to replies. SHA-256, the clock and the file
 * system are parameters.
 */
module PictureHelpers {
  import opened Wrappers
  import opened Text
  import Base64
  import Decimal
  import FilePath

  const DefaultLimit: int := 3
  const MaxLimit: int := 100
  const DefaultOffset: int := 0

  datatype Pagination = Pagination(limit: int, offset: int)

  /** A `limit` query value the handler accepts: an integer in [1, 100]. */
  predicate AcceptedLimit(query: Option<string>) {
    query.Some? && Decimal.Atoi(query.value).Some? && 0 < Decimal.Atoi(query.value).value <= MaxLimit
  }

  /** An `offset` query value the handler accepts: a non-negative integer. */
  predicate AcceptedOffset(query: Option<string>) {
    query.Some? && Decimal.Atoi(query.value).Some? && Decimal.Atoi(query.value).value >= 0
  }

  /**
   * `parsePaginationParams`: each query value (None when the parameter is
   * absent) is used when `strconv.Atoi` accepts it and it is in range, and
   * otherwise replaced by the default.
   */
  function ParsePagination(limitQuery: Option<string>, offsetQuery: Option<string>): (p: Pagination)
    ensures 1 <= p.limit <= MaxLimit
    ensures p.offset >= 0
    ensures AcceptedLimit(limitQuery) ==> p.limit == Decimal.Atoi(limitQuery.value).value
    ensures !AcceptedLimit(limitQuery) ==> p.limit == DefaultLimit
    ensures AcceptedOffset(offsetQuery) ==> p.offset == Decimal.Atoi(offsetQuery.value).value
    ensures !AcceptedOffset(offsetQuery) ==> p.offset == DefaultOffset
  {
    var limit :=
      match limitQuery
      case None => DefaultLimit
      case Some(q) =>
        match Decimal.Atoi(q)
        case Some(n) => if n > 0 && n <= MaxLimit then n else DefaultLimit
        case None => DefaultLimit;
    var offset :=
      match offsetQuery
      case None => DefaultOffset
      case Some(q) =>
        match Decimal.Atoi(q)
        case Some(n) => if n >= 0 then n else DefaultOffset
        case None => DefaultOffset;
    Pagination(limit, offset)
  }

  /** A limit or offset written in canonical decimal comes back unchanged. */
  lemma PaginationOfFormatted(limit: nat, offset: nat)
    requires 1 <= limit <= MaxLimit && offset <= Decimal.Int64Max
    ensures ParsePagination(Some(Decimal.Format(limit)), Some(Decimal.Format(offset))) == Pagination(limit, offset)
  {
    Decimal.AtoiFormat(limit);
    Decimal.AtoiFormat(offset);
  }

  /** A negative or oversized limit, and a negative offset, fall back to the defaults. */
  lemma PaginationOutOfRange(n: nat)
    requires 0 < n <= Decimal.Int64Max
    ensures ParsePagination(Some("-" + Decimal.Format(n)), Some("-" + Decimal.Format(n))) == Pagination(DefaultLimit, DefaultOffset)
    ensures n > MaxLimit ==> ParsePagination(Some(Decimal.Format(n)), None).limit == DefaultLimit
  {
    Decimal.AtoiFormat(n);
  }

  /** A SHA-256 sum. */
  type Digest = d: seq<Base64.byte> | |d| == 32 witness seq(32, i => 0)

  predicate IsLowerHex(c: char) {
    '0' <= c <= '9' || 'a' <= c <= 'f'
  }

  function HexDigit(n: nat): (c: char)
    requires n < 16
    ensures IsLowerHex(c)
  {
    if n < 10 then ('0' as int + n) as char else ('a' as int + n - 10) as char
  }

  /** `fmt.Sprintf("%x", bytes)`: two lower-case hex digits per byte, high nibble first. */
  function Hex(bytes: seq<Base64.byte>): (r: string)
    ensures |r| == 2 * |bytes|
    ensures forall i :: 0 <= i < |r| ==> IsLowerHex(r[i])
    ensures forall i :: 0 <= i < |bytes| ==> r[2 * i] == HexDigit(bytes[i] / 16) && r[2 * i + 1] == HexDigit(bytes[i] % 16)
  {
    seq(2 * |bytes|, k requires 0 <= k < 2 * |bytes| =>
      if k % 2 == 0 then HexDigit(bytes[k / 2] / 16) else HexDigit(bytes[k / 2] % 16))
  }

  /** Distinct digests give distinct hex names. */
  lemma HexInjective(a: seq<Base64.byte>, b: seq<Base64.byte>)
    requires |a| == |b| && Hex(a) == Hex(b)
    ensures a == b
  {
    forall i | 0 <= i < |a| ensures a[i] == b[i] {
      assert HexDigit(a[i] / 16) == HexDigit(b[i] / 16);
      assert HexDigit(a[i] % 16) == HexDigit(b[i] % 16);
      HexDigitInjective(a[i] / 16, b[i] / 16);
      HexDigitInjective(a[i] % 16, b[i] % 16);
    }
  }

  lemma HexDigitInjective(m: nat, n: nat)
    requires m < 16 && n < 16 && HexDigit(m) == HexDigit(n)
    ensures m == n
  {
  }

  /**
   * `generateSafeFileName`: the hex SHA-256 of the original name followed by
   * the current time's text, then the original extension.
   */
  function SafeFileName(original: string, stamp: string, sha256: string -> Digest): (name: string)
    ensures |name| >= 64 && forall i :: 0 <= i < 64 ==> IsLowerHex(name[i])
    ensures name[64..] == FilePath.Ext(original)
    ensures FilePath.Plain(name)
  {
    var name := Hex(sha256(original + stamp)) + FilePath.Ext(original);
    assert name[0] != '.';
    name
  }

  /** The multipart part as the handler sees it: client file name and `Content-Type` header. */
  datatype FileHeader = FileHeader(filename: string, contentType: string)

  /** `FileError`, `ValidationError`, and any other error of the upload path. */
  datatype UploadError = FileError(message: string) | ValidationError(message: string) | OtherError(message: string)

  /**
   * `validateAndSaveFile`: refuse a non-image content type before touching
   * the disk; otherwise save under the safe name, `saveFails` standing for a
   * failure to open, create or copy.
   */
  function ValidateAndSave(file: FileHeader, stamp: string, sha256: string -> Digest, saveFails: bool)
    : (r: Result<string, UploadError>)
    ensures !HasPrefix(file.contentType, "image/") ==> r == Failure(ValidationError("Invalid file type"))
    ensures HasPrefix(file.contentType, "image/") && saveFails ==> r == Failure(FileError("Failed to save the file"))
    ensures r.Success? <==> HasPrefix(file.contentType, "image/") && !saveFails
    ensures r.Success? ==> r.value == SafeFileName(file.filename, stamp, sha256) && FilePath.Plain(r.value)
  {
    if !HasPrefix(file.contentType, "image/") then Failure(ValidationError("Invalid file type"))
    else
      var filename := SafeFileName(file.filename, stamp, sha256);
      if saveFails then Failure(FileError("Failed to save the file")) else Success(filename)
  }

  /** `filepath.Join(basePath, filename)`: where the file is written. */
  function SavePath(basePath: string, filename: string): string {
    FilePath.Join([basePath, filename])
  }

  /** Whatever the client called the file, it is written directly inside a plain base directory. */
  lemma SavedInsideBase(basePath: string, original: string, stamp: string, sha256: string -> Digest)
    requires FilePath.Plain(basePath)
    ensures var name := SafeFileName(original, stamp, sha256);
      SavePath(basePath, name) == basePath + "/" + name
  {
    FilePath.JoinPlain(basePath, SafeFileName(original, stamp, sha256));
  }

  /** `handleUploadPictureError`: the status and the `error` text of the reply. */
  function UploadErrorReply(e: UploadError): (r: (int, string))
    ensures e.FileError? || e.ValidationError? ==> r == (400, e.message)
    ensures e.OtherError? ==> r == (500, "Internal server error")
  {
    match e
    case FileError(m) => (400, m)
    case ValidationError(m) => (400, m)
    case OtherError(_) => (500, "Internal server error")
  }
}

=== FILE: server.dfy ===
/**
 * The request gates of internal/server: `AuthMiddleware` in front of the
 * picture routes, with its own copy of `validateToken`
 * (internal/server/helpers.go), and `PrometheusAuthMiddleware` in front of
 * the metrics endpoint.
 */
module Server {
  import opened Wrappers
  import opened Text
  import opened Db
  import opened Jwt
  import Bearer
  import AuthHelpers

  /** `Api`: the token library and clock, the JWT key, and the metrics key. */
  datatype Api = Api(codec: Codec, jwtKey: Key, prometheusKey: string, now: int)

  /** The server's `validateToken`: parse with the HMAC-only callback, then read `user_id` and `username`. */
  function ValidateToken(api: Api, text: string): (r: Option<User>)
    ensures r.Some? <==>
      Parse(api.codec, text, AuthHelpers.HmacKeyFunc(api.jwtKey), api.now).valid
      && AuthHelpers.CarriesUser(Parse(api.codec, text, AuthHelpers.HmacKeyFunc(api.jwtKey), api.now).claims)
    ensures r.Some? ==> r.value.password == ""
    ensures r.Some? ==>
      var t := api.codec.deserialize(text).value;
      && t.signature == api.codec.mac(t.alg, t.claims, api.jwtKey)
      && ClaimsValid(t.claims, api.now)
      && r.value.id == t.claims["user_id"].n && r.value.username == t.claims["username"].s
  {
    var parsed := Parse(api.codec, text, AuthHelpers.HmacKeyFunc(api.jwtKey), api.now);
    if parsed.err.Some? || !parsed.valid then None
    else
      var claims := parsed.claims;
      if "user_id" !in claims || !claims["user_id"].Number? then None
      else if "username" !in claims || !claims["username"].Text? then None
      else Some(User(claims["user_id"].n, claims["username"].s, ""))
  }

  /** The auth service and the server, holding the same key and library, accept the same tokens as the same user. */
  lemma ValidatorsAgree(api: Api, svc: AuthHelpers.AuthService, text: string)
    requires svc.codec == api.codec && svc.jwtKey == api.jwtKey && svc.now == api.now
    ensures ValidateToken(api, text) == AuthHelpers.ValidateToken(svc, text)
  {
  }

  /** What the middleware lets through: `c.Next()` with the user set in the context, or an aborted 401. */
  datatype Outcome = Abort(status: int, error: string) | Next(userId: int, username: string)

  function AuthMiddleware(api: Api, header: string): (r: Outcome)
    ensures r.Abort? ==> r.status == 401
    ensures Bearer.ExtractToken(header).Failure? ==>
      r == Abort(401, Bearer.Message(Bearer.ExtractToken(header).error))
    ensures r.Next? <==>
      Bearer.ExtractToken(header).Success? && ValidateToken(api, Bearer.ExtractToken(header).value).Some?
    ensures r.Next? ==>
      var t := api.codec.deserialize(header[|Bearer.Prefix|..]).value;
      t.signature == api.codec.mac(t.alg, t.claims, api.jwtKey)
      && r.userId == t.claims["user_id"].n && r.username == t.claims["username"].s
  {
    match Bearer.ExtractToken(header)
    case Failure(e) => Abort(401, Bearer.Message(e))
    case Success(token) =>
      match ValidateToken(api, token)
      case None => Abort(401, "Unauthorized")
      case Some(user) => Next(user.id, user.username)
  }

  /** A token issued at login or registration opens the protected routes as that user. */
  lemma IssuedTokenPasses(api: Api, svc: AuthHelpers.AuthService, user: User)
    requires Sound(api.codec)
    requires svc.codec == api.codec && svc.jwtKey == api.jwtKey && svc.now == api.now
    ensures AuthMiddleware(api, Bearer.Prefix + AuthHelpers.GenerateToken(svc, user)) == Next(user.id, user.username)
  {
    var token := AuthHelpers.GenerateToken(svc, user);
    Bearer.ExtractTokenOf(token);
    AuthHelpers.ValidateGenerated(svc, user);
    ValidatorsAgree(api, svc, token);
  }

  /**
   * `strings.Split(s, sep)[1]`: the text between the first occurrence of sep
   * and the next one (or the end); None where the split has one piece only.
   */
  function SecondPiece(s: string, sep: string): (r: Option<string>)
    requires |sep| > 0
    ensures r.None? <==> !Contains(s, sep)
    ensures r.Some? ==>
      var after := s[IndexOf(s, sep).value + |sep|..];
      && HasPrefix(after, r.value)
      && (forall k :: 0 <= k < |r.value| ==> !OccursAt(after, sep, k))
      && (r.value == after || OccursAt(after, sep, |r.value|))
  {
    match IndexOf(s, sep)
    case None => None
    case Some(i) =>
      var after := s[i + |sep|..];
      match IndexOf(after, sep)
      case None =>
        assert after[..|after|] == after;
        Some(after)
      case Some(j) =>
        assert after[..j][..j] == after[..j];
        Some(after[..j])
  }

  /** How the metrics gate ends: 401, a runtime panic (which gin's recovery turns into a 500), or through. */
  datatype Gate = Reject(status: int, error: string) | Panic | Pass

  /**
   * `PrometheusAuthMiddleware`: the header must contain "Bearer" anywhere;
   * the key is the second piece of the header split on "Bearer ".
   */
  function PrometheusAuthMiddleware(api: Api, header: string): (r: Gate)
    ensures !Contains(header, "Bearer") ==> r == Reject(401, "Authorization header must start with Bearer")
    ensures Contains(header, "Bearer") && !Contains(header, "Bearer ") ==> r == Panic
    ensures r == Pass <==> SecondPiece(header, Bearer.Prefix) == Some(api.prometheusKey)
    ensures r.Reject? ==> r.status == 401
  {
    BearerWithSpace(header);
    if !Contains(header, "Bearer") then Reject(401, "Authorization header must start with Bearer")
    else
      match SecondPiece(header, Bearer.Prefix)
      case None => Panic
      case Some(key) => if key != api.prometheusKey then Reject(401, "Unauthorized") else Pass
  }

  /** Every occurrence of "Bearer " is one of "Bearer". */
  lemma BearerWithSpace(s: string)
    ensures Contains(s, Bearer.Prefix) ==> Contains(s, "Bearer")
  {
    if !Contains(s, Bearer.Prefix) { return; }
    var j := IndexOf(s, Bearer.Prefix).value;
    assert s[j..j + 6] == s[j..j + 7][..6];
    assert OccursAt(s, "Bearer", j);
  }

  /** The documented form "Bearer <key>" passes when the key itself holds no "Bearer ". */
  lemma PrometheusKeyAccepted(api: Api)
    requires !Contains(api.prometheusKey, Bearer.Prefix)
    ensures PrometheusAuthMiddleware(api, Bearer.Prefix + api.prometheusKey) == Pass
  {
    var s := Bearer.Prefix + api.prometheusKey;
    assert OccursAt(s, Bearer.Prefix, 0);
    assert IndexOf(s, Bearer.Prefix) == Some(0);
    assert s[7..] == api.prometheusKey;
  }

  /**
   * The gate does not check the scheme: "Token Bearer <key>" passes too,
   * while "Bearerkey" (no space) makes the `[1]` index panic.
   */
  lemma PrometheusLooseMatching(api: Api)
    requires !Contains(api.prometheusKey, Bearer.Prefix)
    ensures PrometheusAuthMiddleware(api, "Token " + Bearer.Prefix + api.prometheusKey) == Pass
    ensures PrometheusAuthMiddleware(api, "Bearer" + api.prometheusKey) != Pass
  {
    var s := "Token " + Bearer.Prefix + api.prometheusKey;
    assert OccursAt(s, Bearer.Prefix, 6);
    forall j | 0 <= j < 6 ensures !OccursAt(s, Bearer.Prefix, j) {
      assert s[j] != Bearer.Prefix[0];
    }
    assert IndexOf(s, Bearer.Prefix) == Some(6);
    assert s[13..] == api.prometheusKey;
  }
}

=== FILE: text.dfy ===
/**
 * The handful of Go `strings` functions the authentication layer relies on:
 * `strings.Split` with a one-character separator, `strings.HasPrefix`,
 * `strings.Contains`/`strings.Index`, and `strings.ToLower` on ASCII text.
 */
module Text {
  import opened Wrappers

  predicate HasPrefix(s: string, prefix: string) {
    |prefix| <= |s| && s[..|prefix|] == prefix
  }

  /** `strings.Split(s, string(sep))`: the maximal sep-free pieces, left to right. */
  function Split(s: string, sep: char): (parts: seq<string>)
    ensures |parts| >= 1
    ensures forall i :: 0 <= i < |parts| ==> sep !in parts[i]
  {
    if |s| == 0 then [""]
    else
      var rest := Split(s[1..], sep);
      if s[0] == sep then [""] + rest
      else [[s[0]] + rest[0]] + rest[1..]
  }

  /** `strings.Join(parts, string(sep))`. */
  function JoinWith(parts: seq<string>, sep: char): string
  {
    if |parts| == 0 then ""
    else if |parts| == 1 then parts[0]
    else parts[0] + [sep] + JoinWith(parts[1..], sep)
  }

  lemma {:induction false} SplitNoSeparator(s: string, sep: char)
    requires sep !in s
    ensures Split(s, sep) == [s]
  {
    if |s| > 0 {
      SplitNoSeparator(s[1..], sep);
      assert [s[0]] + s[1..] == s;
    }
  }

  /** Splitting at the first separator peels off the sep-free head. */
  lemma {:induction false} SplitAppend(head: string, sep: char, tail: string)
    requires sep !in head
    ensures Split(head + [sep] + tail, sep) == [head] + Split(tail, sep)
  {
    if |head| == 0 {
      assert head + [sep] + tail == [sep] + tail;
      assert ([sep] + tail)[1..] == tail;
    } else {
      var s := head + [sep] + tail;
      assert s[0] == head[0];
      assert s[1..] == head[1..] + [sep] + tail;
      SplitAppend(head[1..], sep, tail);
      assert [head[0]] + head[1..] == head;
    }
  }

  /** Joining the pieces of a split gives back the original text. */
  lemma {:induction false} JoinSplit(s: string, sep: char)
    ensures JoinWith(Split(s, sep), sep) == s
  {
    if |s| > 0 {
      JoinSplit(s[1..], sep);
      var rest := Split(s[1..], sep);
      if s[0] == sep {
        assert Split(s, sep) == [""] + rest;
        assert ([""] + rest)[1..] == rest;
        assert [s[0]] + s[1..] == s;
      } else {
        var parts := [[s[0]] + rest[0]] + rest[1..];
        assert Split(s, sep) == parts;
        if |rest| == 1 {
          assert JoinWith(rest, sep) == rest[0];
        } else {
          assert parts[1..] == rest[1..];
          assert JoinWith(rest, sep) == rest[0] + [sep] + JoinWith(rest[1..], sep);
        }
        assert [s[0]] + s[1..] == s;
      }
    }
  }

  /** pat occurs in s starting at position j. */
  predicate OccursAt(s: string, pat: string, j: int) {
    0 <= j && j + |pat| <= |s| && s[j..j + |pat|] == pat
  }

  /** Splitting a join of separator-free pieces gives the pieces back. */
  lemma {:induction false} SplitJoin(parts: seq<string>, sep: char)
    requires |parts| >= 1
    requires forall i :: 0 <= i < |parts| ==> sep !in parts[i]
    ensures Split(JoinWith(parts, sep), sep) == parts
  {
    if |parts| == 1 {
      SplitNoSeparator(parts[0], sep);
    } else {
      SplitJoin(parts[1..], sep);
      SplitAppend(parts[0], sep, JoinWith(parts[1..], sep));
      assert [parts[0]] + parts[1..] == parts;
    }
  }

  /** An occurrence past the first character is an occurrence in the tail, one position earlier. */
  lemma OccursShift(s: string, pat: string, j: int)
    requires |s| > 0 && 1 <= j
    ensures OccursAt(s, pat, j) <==> OccursAt(s[1..], pat, j - 1)
  {
    if j + |pat| <= |s| {
      var a, b := s[j..j + |pat|], s[1..][j - 1..j - 1 + |pat|];
      assert |a| == |b|;
      assert forall k :: 0 <= k < |a| ==> a[k] == s[j + k] == b[k];
      assert a == b;
    }
  }

  /** `strings.Index`: the first position at which pat occurs in s. */
  function IndexOf(s: string, pat: string): (r: Option<nat>)
    ensures r.Some? ==> OccursAt(s, pat, r.value)
    ensures r.Some? ==> forall j :: 0 <= j < r.value ==> !OccursAt(s, pat, j)
    ensures r.None? ==> forall j :: !OccursAt(s, pat, j)
    decreases |s|
  {
    if |s| < |pat| then None
    else if s[..|pat|] == pat then Some(0)
    else
      var r := IndexOf(s[1..], pat);
      assert forall j :: 1 <= j ==> (OccursAt(s, pat, j) <==> OccursAt(s[1..], pat, j - 1)) by {
        forall j | 1 <= j
          ensures OccursAt(s, pat, j) <==> OccursAt(s[1..], pat, j - 1)
        {
          OccursShift(s, pat, j);
        }
      }
      match r
      case None => None
      case Some(k) => Some(k + 1)
  }

  predicate Contains(s: string, pat: string) {
    IndexOf(s, pat).Some?
  }

  predicate IsUpper(c: char) { 'A' <= c <= 'Z' }

  function LowerChar(c: char): char {
    if IsUpper(c) then (c as int + 32) as char else c
  }

  /** `strings.ToLower` on ASCII text: A-Z become a-z, every other character is kept. */
  function ToLower(s: string): (r: string)
    ensures |r| == |s|
    ensures forall i :: 0 <= i < |s| ==> r[i] == LowerChar(s[i])
  {
    seq(|s|, i requires 0 <= i < |s| => LowerChar(s[i]))
  }

  lemma ToLowerHasNoUpper(s: string)
    ensures forall i :: 0 <= i < |s| ==> !IsUpper(ToLower(s)[i])
  {
  }

  lemma ToLowerIdempotent(s: string)
    ensures ToLower(ToLower(s)) == ToLower(s)
  {
  }

  predicate IsAscii(c: char) { c as int < 0x80 }

  /** The number of bytes UTF-8, the encoding of Go strings, spends on one character. */
  function Utf8Width(c: char): (n: nat)
    ensures 1 <= n <= 4
    ensures n == 1 <==> IsAscii(c)
  {
    if c as int < 0x80 then 1
    else if c as int < 0x800 then 2
    else if c as int < 0x1_0000 then 3
    else 4
  }

  /** Go's `len(s)`: the number of UTF-8 bytes, never fewer than the characters. */
  function Utf8Len(s: string): (n: nat)
    ensures |s| <= n <= 4 * |s|
    ensures n == |s| <==> forall i :: 0 <= i < |s| ==> IsAscii(s[i])
  {
    if s == [] then 0
    else
      assert forall i :: 1 <= i < |s| ==> s[1..][i - 1] == s[i];
      Utf8Width(s[0]) + Utf8Len(s[1..])
  }
}

=== FILE: wrappers.dfy ===
/** Failure-carrying result types shared by every module of the model. */
module Wrappers {

  datatype Option<+T> = None | Some(value: T)

  datatype Result<+T, +E> = Success(value: T) | Failure(error: E) {
    predicate IsFailure() {
      Failure?
    }
  }
}
